=== FILE: README.md ===
# ZOOLU-JS core, modelled in Dafny

ZOOLU-JS is a browser widget toolkit. Most of it builds DOM markup. This project models the
three parts that hold real bookkeeping:

- **The event API.** `ZOOLU.MIXIN.Events` (`enable`, `on`, `off`, `trigger`) and its older
  copy `ZOOLU.UTIL.Events` (`enable`, `on`, `off`, `fire`). Both keep a `listeners` object
  that maps an event name to the ordered callbacks bound to it. The model is one abstract
  registry, `map<string, seq<CallbackId>>` (module `Listeners`), with two thin front-ends
  (`MixinEvents`, `UtilEvents`). Callbacks are opaque identities. Triggering an event is the
  ordered list of `(callback, args)` invocations it makes.
- **The cookie store.** `ZOOLU.STORE.Cookie` is a lazily created singleton that holds a
  property map with `set` and `get`. The `ZOOLU` cookie is represented by the map it
  encodes (module `CookieStore`).
- **The column tree.** `ZOOLU.UI.ColumnTree` is a drill-down navigator with one column per
  level. Its state is the level, the selected id, the response data per level, and the
  columns in the container (number, busy marker, rows). The REST request is split into two
  transitions: `Load` issues it and returns the URL, and `Respond` / `RequestFailed` handle
  its completion (module `ColumnTree`).

Supporting modules: `Wrappers` (Option/Result), `JsValue` (JavaScript values, truthiness,
`instanceof Function`) and `Decimal` (how an integer prints when concatenated into a string).

Some facts about the code that shape the model:

- `off(event, cb)` removes every entry identical to `cb`.
- `select` empties the row lists of deeper columns and keeps their entries in `data`.
- Rows show the node name as is.
- Both errors the widget raises are plain strings, "Column container doesn't exist!" and
  "Current column not found!"; no exception type is defined.
- Whether a node is expandable is the fixed test `type == 'folder'`.

Exceptions do not roll back. `Respond` runs `updateData` before `updateView` can throw, so
a throwing transition returns the state at the point of the throw (`Outcome.Threw`).

## Model

| member | source | states |
|---|---|---|
| `Listeners.Without` | src/zoolu/mixin.js:125-133 | the list `off` rebuilds has no entry identical to the callback and is no longer than the old list |
| `Listeners.WithoutCounts` | src/zoolu/mixin.js:125-133 | the rebuilt list holds the removed callback zero times and every other callback exactly as often as before |
| `Listeners.WithoutMembers` | src/zoolu/mixin.js:128-132 | a callback survives removal iff it was listed and is not the one removed |
| `Listeners.WithoutKeepsOrder` | src/zoolu/mixin.js:128-133 | the survivors sit at strictly increasing positions of the old list, so their relative order is kept |
| `Listeners.WithoutIdempotent` | src/zoolu/mixin.js:125-133 | removing the same callback a second time removes nothing more |
| `Listeners.On` | src/zoolu/mixin.js:102-112 | `on` always leaves an entry for the event; a function goes at the end of that list; a non-function adds nothing; other events are untouched |
| `Listeners.OffList` | src/zoolu/mixin.js:123-137 | an empty list stays empty; a falsy or omitted callback clears the list; a truthy one leaves no entry identical to it |
| `Listeners.OffListCounts` | src/zoolu/mixin.js:125-133 | with a truthy callback, `off` drops every identical entry and keeps every other callback as often as before |
| `Listeners.Off` | src/zoolu/mixin.js:122-138 | `off` never adds or removes event names; an absent event leaves the registry unchanged; other events keep their lists |
| `Listeners.Invoke` | src/zoolu/mixin.js:88-91 | dispatch makes one call per listener, in list order, each with the same arguments |
| `Listeners.Trigger` | src/zoolu/mixin.js:83-93 | an event without an entry triggers nothing; otherwise each listener is called once, in registration order; omitted arguments become the empty list |
| `Listeners.TriggerAfterOn` | src/zoolu/mixin.js:102-112 | binding a function adds exactly one call, after all earlier listeners |
| `Listeners.TriggerOtherEvent` | src/zoolu/mixin.js:104-110 | `on` and `off` on one event never change what another event triggers |
| `Listeners.TriggerAfterOff` | src/zoolu/mixin.js:125-133 | after `off(e, cb)`, triggering `e` never calls `cb` and still calls every other listener |
| `Listeners.TriggerAfterClear` | src/zoolu/mixin.js:134-136 | after `off(e)` without a callback, `e` triggers nothing |
| `Listeners.WithoutUndoesAppend` | src/zoolu/mixin.js:125-133 | removing a callback that was appended last, and is nowhere else, restores the old list |
| `Listeners.OffUndoesOn` | src/zoolu/mixin.js:102-136 | `off(e, cb)` after `on(e, cb)` restores the registry when `e` had an entry without `cb` |
| `Listeners.OffAfterOnFresh` | src/zoolu/mixin.js:104-106 | on an event with no entry, `on` then `off` leaves an empty entry, not the original registry |
| `Listeners.OffListIdempotent` | src/zoolu/mixin.js:123-137 | rewriting a list with the same `off` arguments twice equals doing it once |
| `Listeners.OffIdempotent` | src/zoolu/mixin.js:122-138 | a repeated `off` with the same arguments changes nothing |
| `Listeners.OffKeepsOrder` | src/zoolu/mixin.js:122-138 | after any `off`, the event's list is an order-preserving sublist of the old one |
| `Listeners.RunConcat` | src/zoolu/mixin.js:102-138 | running two call sequences one after the other equals running their concatenation |
| `Listeners.RunThree` | src/zoolu/mixin.js:102-138 | a sequence of three calls applies them in order |
| `Listeners.NewListenerIsBound` | src/zoolu/mixin.js:102-138 | the only way a callback enters a list is an `on` call with that function; `off` never adds one |
| `Listeners.RunHoldsOnlyBound` | src/zoolu/mixin.js:102-138 | along any sequence of calls, every listed callback was passed to some `on` call |
| `Listeners.FreshRunHoldsOnlyBound` | src/zoolu/mixin.js:53-138 | starting from the empty registry of `enable`, only functions passed to `on` are ever listed |
| `MixinEvents.Enable` | src/zoolu/mixin.js:53-57 | `enable` creates an empty registry only when there is none, and otherwise keeps the existing listeners |
| `MixinEvents.EnableIdempotent` | src/zoolu/mixin.js:55-57 | enabling twice is the same as enabling once: the guard keeps the registry the first call created |
| `MixinEvents.On` | src/zoolu/mixin.js:102-112 | `on` throws a TypeError on a host that was never enabled; otherwise it appends a function to the event's list, and the new registry is exactly the registry-level `on` of the old one |
| `MixinEvents.Off` | src/zoolu/mixin.js:122-138 | `off` throws on a host that was never enabled; otherwise it keeps the set of event names, an unknown event changes nothing, and the new registry is exactly the registry-level `off` of the old one |
| `MixinEvents.Trigger` | src/zoolu/mixin.js:83-93 | `trigger` throws on a host that was never enabled; otherwise it makes one call per listener, none for an unknown event, and exactly the calls of the registry-level `trigger` (listeners in order, given or empty arguments) |
| `MixinEvents.EnableOnTrigger` | test/src/zoolu/mixin.js:19-46 | after `enable` and one `on`, the event's list is exactly that callback, and `trigger(e, [arg])` calls it once with `arg` |
| `MixinEvents.OffScenarioFirstEvent` | test/src/zoolu/mixin.js:67-69 | two callbacks bound, first removed: the second is alone at the front |
| `MixinEvents.OffScenarioSecondEvent` | test/src/zoolu/mixin.js:71-73 | `off(e2)` empties `e2` and leaves `e1` alone |
| `MixinEvents.OffScenario` | test/src/zoolu/mixin.js:48-79 | the whole `off` test ends with `e1 ↦ [stay]` and `e2 ↦ []` |
| `UtilEvents.Fire` | src/zoolu/util.js:19-26 | `fire` calls each listener of the event once, in registration order; an unknown event does nothing; an unenabled host throws |
| `UtilEvents.On` | src/zoolu/util.js:28-40 | `on` enables the host first, never throws, and appends only functions at the end of the event's list |
| `UtilEvents.Off` | src/zoolu/util.js:42-58 | `off` keeps the set of event names, leaves an unknown event alone, and rewrites the event's list as the mixin does |
| `UtilEvents.OnFreshHost` | src/zoolu/util.js:28-34 | `on` on an object never enabled yields the registry `e ↦ [cb]` |
| `UtilEvents.OnFreshHostNonCallable` | src/zoolu/util.js:32-39 | `on` with a non-function on a fresh object yields `e ↦ []` |
| `UtilEvents.OnAgreesWithMixin` | src/zoolu/util.js:28-40 | on an enabled host the two copies of `on` give the same registry |
| `UtilEvents.OffAgreesWithMixin` | src/zoolu/util.js:42-58 | the two copies of `off` agree on every input, including the failure on an unenabled host |
| `UtilEvents.FireAgreesWithTrigger` | src/zoolu/util.js:19-26 | `fire` makes exactly the calls the mixin's `trigger` makes |
| `CookieStore.Init` | src/zoolu/store.js:37-38 | a new instance starts from the map the cookie encodes, or from an empty map when there is no cookie |
| `CookieStore.Set` | src/zoolu/store.js:42-45 | `set` stores the value under the key, keeps every other key, and leaves the cookie equal to the whole map |
| `CookieStore.Get` | src/zoolu/store.js:47-49 | `get` returns the stored value when it is truthy, and `null` otherwise |
| `CookieStore.GetAfterSet` | src/zoolu/store.js:42-49 | a truthy value written with `set` is read back by `get` |
| `CookieStore.GetAfterSetFalsy` | src/zoolu/store.js:48 | a stored `0`, `false`, `""`, `null` or `undefined` reads back as `null` |
| `CookieStore.GetMissing` | src/zoolu/store.js:48 | a key never stored (and not an inherited `Object.prototype` member) reads as `null` |
| `CookieStore.SetOtherKey` | src/zoolu/store.js:43 | `set` on one key does not change what any other key reads |
| `CookieStore.SetOverwrites` | src/zoolu/store.js:43-44 | last write wins: a second `set` on a key erases every trace of the first |
| `CookieStore.SetsCommute` | src/zoolu/store.js:43-44 | writes to different keys can be made in either order |
| `CookieStore.SetAllSnoc` | src/zoolu/store.js:42-45 | a sequence of writes ending in `w` equals the earlier writes followed by `set(w)` |
| `CookieStore.GetAfterWrites` | src/zoolu/store.js:42-49 | after any sequence of writes, a key reads as its last write (or `null` if that is falsy), and an unwritten key reads as before |
| `CookieStore.WritesPersist` | src/zoolu/store.js:44 | after at least one write, the cookie holds exactly the in-memory map |
| `CookieStore.GetInstance` | src/zoolu/store.js:56-61 | the first call creates the instance from the cookie; later calls return the instance the singleton holds and ignore the cookie |
| `CookieStore.InstanceSet` | src/zoolu/store.js:42-45 | `getInstance().set(k, v)` changes the one shared instance: it persists, gains `k`, reads `v` back when truthy, and every other key reads as before |
| `CookieStore.InstanceGet` | src/zoolu/store.js:47-61 | `getInstance().get(k)` reads the shared instance, or the one just created from the cookie, which the singleton then keeps |
| `CookieStore.InstanceSetAllShares` | src/zoolu/store.js:42-45 | writes made through successive `getInstance()` calls all accumulate in the one shared store |
| `CookieStore.SharedInstanceReads` | src/zoolu/store.js:42-61 | a later `getInstance().get(k)` reads the last value set through any earlier `getInstance()` (or `null` when falsy); an unwritten key reads as the instance first held it |
| `CookieStore.GetInstanceOnce` | src/zoolu/store.js:57-60 | a second `getInstance` returns the same instance and ignores the cookie |
| `CookieStore.StoreScenario` | test/src/zoolu/store.js:22-47 | a string set through the instance is in the cookie and is what `get` returns |
| `Decimal.NatToString` | src/zoolu/ui.js:119 | a natural number prints as digits without a leading zero |
| `Decimal.ParseNatToString` | src/zoolu/ui.js:119 | reading back the printed digits gives the number |
| `Decimal.IntToString` | src/zoolu/ui.js:119 | an integer prints as digits, with a leading `-` exactly when it is negative |
| `Decimal.NegativeDigits` | src/zoolu/ui.js:119 | a negative number prints as `-` followed by the digits of its magnitude |
| `Decimal.IntToStringInjective` | src/zoolu/ui.js:119 | distinct integers print differently |
| `ColumnTree.FindColumn` | src/zoolu/ui.js:63 | `$('#column-' + n)` picks the first column with number `n`, or none |
| `ColumnTree.FindConsecutive` | src/zoolu/ui.js:63 | in columns numbered consecutively from `base`, column `n` is at position `n - base` |
| `ColumnTree.FindNumbered` | src/zoolu/ui.js:63 | in columns numbered by position, column `n` is at position `n` |
| `ColumnTree.SetBusy` | src/zoolu/ui.js:64 | only the selected column's busy marker changes; rows and numbers stay |
| `ColumnTree.MakeOptions` | src/zoolu/ui.js:23-25 | the children suffix defaults to `/children` unless one is given |
| `ColumnTree.UrlSet` | src/zoolu/ui.js:56 | `load` proceeds exactly when the URL option is present and truthy as a string |
| `ColumnTree.RequestUrl` | src/zoolu/ui.js:67 | the request URL starts with the base URL; it is the base URL when nothing or a falsy id is selected, and `url/<id><suffix>` for a truthy id |
| `ColumnTree.Initial` | src/zoolu/ui.js:27-34 | a fresh tree is at level 0, with no selection, no data and no columns |
| `ColumnTree.AddColumn` | src/zoolu/ui.js:110-114 | `addColumn` appends one empty column numbered with the current level |
| `ColumnTree.Load` | src/zoolu/ui.js:53-82 | without a URL nothing happens; with one, a column is added only when the count is at most the level, the current level's column becomes current and busy, the root or children URL is requested, every other column is unchanged, and an added column is numbered with the level and has no rows |
| `ColumnTree.Construct` | src/zoolu/ui.js:16-39 | a missing container throws with no other effect; otherwise the tree starts at level 0 with no selection and no data, then loads |
| `ColumnTree.UpdateData` | src/zoolu/ui.js:84-88 | the response becomes the current level's data; every other level's data is unchanged |
| `ColumnTree.MakeRow` | src/zoolu/ui.js:116-131 | a row carries its node's id, type and name, records the current level, and has the DOM id `row-<id>-<type>` |
| `ColumnTree.RowsFor` | src/zoolu/ui.js:103-105 | one row per node, in response order, all at the given level |
| `ColumnTree.SetRows` | src/zoolu/ui.js:99-105 | only the selected column's rows are replaced |
| `ColumnTree.UpdateView` | src/zoolu/ui.js:90-108 | throws when the current column is null or missing; otherwise clears busy and makes the current level's rows exactly its data; with no data for the level it throws after clearing busy and emptying the list |
| `ColumnTree.Respond` | src/zoolu/ui.js:70-74 | the response always lands in `data`; the view update succeeds iff the current column exists |
| `ColumnTree.RequestFailed` | src/zoolu/ui.js:75-79 | a failed request clears the busy marker of the current column and leaves every other column as it was; with no current column it throws |
| `ColumnTree.LoadThenFailure` | src/zoolu/ui.js:59-79 | after `load` and a failed request, the current level's column is no longer busy and the tree stays well formed |
| `ColumnTree.EmptyDeeper` | src/zoolu/ui.js:151-156 | every column numbered above the level loses its rows; the others are untouched |
| `ColumnTree.Select` | src/zoolu/ui.js:141-162 | records the id, moves to the row's level, empties deeper columns without touching `data`; a folder goes exactly one level deeper and loads, any other type stays and requests nothing |
| `ColumnTree.ConstructWellFormed` | src/zoolu/ui.js:16-39 | a freshly constructed tree satisfies the layout invariant |
| `ColumnTree.LoadWellFormed` | src/zoolu/ui.js:59-64 | `load` keeps the invariant, adds a column exactly when the count equals the level, and leaves the level's column busy |
| `ColumnTree.RespondWellFormed` | src/zoolu/ui.js:84-108 | with a current column the response never throws; the level's column holds exactly the response rows and is not busy; other columns keep their rows |
| `ColumnTree.SelectedWellFormed` | src/zoolu/ui.js:148-156 | recording a selection and emptying deeper columns keeps the invariant |
| `ColumnTree.SelectWellFormed` | src/zoolu/ui.js:141-162 | selecting a displayed row keeps the invariant, empties every deeper column and keeps the shallower ones |
| `ColumnTree.RootRequest` | src/zoolu/ui.js:67 | with nothing selected, `load` requests the base URL |
| `ColumnTree.FolderRequest` | src/zoolu/ui.js:67 | selecting a folder with a truthy id requests `url/<id><suffix>` |
| `ColumnTree.FalsyFolderRequestsRoot` | src/zoolu/ui.js:67 | selecting a folder whose id is `0` or `""` requests the base URL again |
| `ColumnTree.LeafSelectStays` | src/zoolu/ui.js:158-161 | selecting a non-folder issues no request and keeps the row's level |
| `ColumnTree.StripAffixes` | src/zoolu/ui.js:67 | equal strings with a common prefix and suffix have equal middles |
| `ColumnTree.ChildUrlsDiffer` | src/zoolu/ui.js:67 | under one base URL and suffix, distinct numbers give distinct child URLs |
| `ColumnTree.FolderUrl` | src/zoolu/ui.js:67 | selecting a folder requests its child URL when its id is truthy and the base URL otherwise |
| `ColumnTree.ChildUrlsDistinct` | src/zoolu/ui.js:67 | selecting two folders with distinct (safe) numeric ids makes `load` request two distinct URLs, including when one id is `0` and requests the base URL |
| `ColumnTree.RowIdsDistinct` | src/zoolu/ui.js:119 | nodes of one type with distinct numeric ids get distinct `row-<id>-<type>` ids |
| `ColumnTree.ScenarioConstruct` | test/src/zoolu/ui/columnTree.js:50-62 | constructing on `/nodes` adds busy column 0 and requests `/nodes` |
| `ColumnTree.ScenarioRootResponse` | test/src/zoolu/ui/columnTree.js:50-62 | the root response shows two rows, `row-1-page` and `row-2-folder`, in column 0 |
| `ColumnTree.ScenarioSelectFolder` | test/src/zoolu/ui/columnTree.js:90-109 | clicking `row-2-folder` adds column 1 and requests `/nodes/2/children` |
| `ColumnTree.RespondSecondColumn` | src/zoolu/ui.js:84-108 | a level-1 response while the second column is current and busy fills that column, frees it and stores the data |
| `ColumnTree.ScenarioChildrenResponse` | test/src/zoolu/ui/columnTree.js:90-109 | the children response gives column 1 three rows and leaves column 0 as it was |

## Left out

- DOM construction: markup, CSS classes (`row`, `selected`, the node type class), `.data()` storage, the click binding in `attachRowObservers` and the `ColumnTree.load`/`ColumnTree.select` DOM events (src/zoolu/ui.js:57, 112-139, 144-146, 164-166). Columns and rows are records. `select` is modelled as called with a row.
- Asynchronous completion order. `Load` and `Respond`/`RequestFailed` are separate transitions, and any interleaving of them is a sequence of calls. The model does not describe which of several in-flight requests answers first. A stale answer is handled with whatever level is current when it arrives, as in the code.
- Cookie I/O and JSON: the cookie is the map it encodes. Values JSON cannot represent are not dropped, and a malformed cookie (where `JSON.parse` throws) is not modelled. The unused `counter` variable is not modelled.
- Callback execution: the `window` context, return values, exceptions, and callbacks that change the registry while `trigger` runs. Callbacks are side-effect-free identities.
- Event names that coincide with inherited `Object.prototype` members (`toString`, `__proto__`). For these, `listeners[event]` is truthy before any `on`.
- CookieStore.GetMissing: holds only for keys that are not inherited `Object.prototype` members. `get('toString')` on a fresh store returns the inherited function, which is truthy, and `set('__proto__', v)` creates no own key and never reaches the cookie (src/zoolu/store.js:43-48). The model treats `properties` as a map with no prototype.
- A non-array `args` passed to `trigger`/`fire`: `apply` throws or reads it as array-like. Only lists and omitted/null arguments are modelled.
- JavaScript numbers beyond integers: NaN, `-0` and fractions. Node ids are JSON integers in the safe range or strings.
- Decimal.IntToString: prints the exact digits of every integer. JavaScript's `String(n)` agrees only while `n` is exactly representable (up to 2^53); above that `JSON.parse` rounds the id and `String` prints the shortest round-trip digits. Numeric node ids are therefore restricted to `Number.MAX_SAFE_INTEGER` in magnitude (`ColumnTree.SafeInteger`), and the URL and row-id lemmas hold only for such ids.
- A container that already holds `.column` elements, several trees in one document (column and row ids are global to the document), and `select` called on an element that is not a row (for example markup inside a row's name, which is inserted as HTML).
- The `Function.prototype.bind` polyfill and the global `window.log`/`window.debug` (src/zoolu.js:1-35): browser plumbing.
- Tablelist, Layout/Panel, Modal, Button, ButtonGroup and Dropdown: DOM widgets outside the event, store and column-tree logic; not modelled.
- The string truncation helpers: `ZOOLU.UTIL.String` is an empty object (src/zoolu/util.js:80-82).
- `ZOOLU.UI.Exception`, `selectedElementIds`, `updateSelectedMarker` and `columnTree.on(...)`, which the widget tests use: they are not in src/zoolu/ui.js, and src/zoolu.js adds no `on` to the widget, so as written those tests throw a TypeError at the `on` call before the click that `ScenarioSelectFolder` models.

=== FILE: column_tree.dfy ===
/**
 * `ZOOLU.UI.ColumnTree`: a drill-down navigator that shows one column per tree level and
 * fetches each level's nodes from a REST endpoint. The DOM is abstracted to the list of
 * column elements in the container, each with its `column-<n>` number, its busy marker and
 * its rows. The asynchronous request is split into two transitions: `Load` issues it (and
 * returns the URL requested), `Respond` handles its successful response.
 */
module ColumnTree {
  import opened Wrappers
  import opened JsValue
  import Decimal

  /** The node type whose selection descends one level (`CONST.nodeTypes.folder`). */
  const Folder: string := "folder"

  /** The default of `urlAddOnForLoadingNodeChildren`. */
  const DefaultChildrenSuffix: string := "/children"

  // ---------------------------------------------------------------------------
  // Entities
  // ---------------------------------------------------------------------------

  /** `Number.MAX_SAFE_INTEGER`: beyond it a JavaScript number no longer holds every integer. */
  const MaxSafeInteger: int := 0x1F_FFFF_FFFF_FFFF

  /** The integers a JavaScript number holds exactly, so that `String(n)` prints their digits. */
  type SafeInteger = n: int | -MaxSafeInteger <= n <= MaxSafeInteger

  /** A node's `id` as the endpoint sends it: a JSON integer in the safe range, or a string. */
  datatype NodeId = Number(n: SafeInteger) | Text(s: string)

  /** The id as a JavaScript value, for truthiness tests. */
  function IdValue(id: NodeId): Value {
    match id
    case Number(n) => Num(n)
    case Text(s) => Str(s)
  }

  /** The id as it appears when concatenated into a string. */
  function IdText(id: NodeId): string {
    match id
    case Number(n) => Decimal.IntToString(n)
    case Text(s) => s
  }

  /** One element of a response: `{ id, type, name }`. */
  datatype Node = Node(id: NodeId, nodeType: string, name: string)

  /**
   * A row element: its DOM id, the node data stored on it, and the level it was rendered at.
   */
  datatype Row = Row(domId: string, id: NodeId, nodeType: string, name: string, level: nat)

  /** A column element `column-<id>`; its stored level is `id` as well. */
  datatype Column = Column(id: nat, busy: bool, rows: seq<Row>)

  /** The options after merging with the defaults. */
  datatype Options = Options(url: Option<string>, childrenSuffix: string)

  /**
   * The widget's state: the current `level`, `selectedId` (`None` is `null`), the response
   * `data` per level, the columns in the container, and the column number `$currentColumn`
   * was looked up with by the last `load` (`None` while it is still `null`).
   */
  datatype Tree = Tree(
    options: Options,
    level: nat,
    selectedId: Option<NodeId>,
    data: map<nat, seq<Node>>,
    columns: seq<Column>,
    current: Option<nat>)

  /** What the widget throws: the two messages it raises itself, and reading a property of null/undefined. */
  datatype Error =
    | ContainerMissing   // "Column container doesn't exist!"
    | ColumnNotFound     // "Current column not found!"
    | TypeError

  /** A transition that can throw; a throw leaves the object as it was at that point. */
  datatype Outcome = Done(tree: Tree) | Threw(tree: Tree, error: Error)

  /** The state after `load`, and the URL of the GET request it issued, if any. */
  datatype Loaded = Loaded(tree: Tree, request: Option<string>)

  // ---------------------------------------------------------------------------
  // Column lookup
  // ---------------------------------------------------------------------------

  /** `$('#column-' + id)`: the position of the first column with that number. */
  function FindColumn(columns: seq<Column>, id: nat): (r: Option<nat>)
    ensures r.Some? ==> r.value < |columns| && columns[r.value].id == id
    ensures r.Some? ==> forall j :: 0 <= j < r.value ==> columns[j].id != id
    ensures r.None? ==> forall j :: 0 <= j < |columns| ==> columns[j].id != id
    decreases |columns|
  {
    if |columns| == 0 then None
    else if columns[0].id == id then Some(0)
    else
      match FindColumn(columns[1..], id)
      case None => None
      case Some(k) => Some(k + 1)
  }

  /** In columns numbered consecutively from `base`, column `id` sits at position `id - base`. */
  lemma {:induction false} FindConsecutive(columns: seq<Column>, base: nat, id: nat)
    requires forall i :: 0 <= i < |columns| ==> columns[i].id == base + i
    ensures base <= id < base + |columns| ==> FindColumn(columns, id) == Some(id - base)
    ensures !(base <= id < base + |columns|) ==> FindColumn(columns, id) == None
    decreases |columns|
  {
    if |columns| > 0 && columns[0].id != id {
      FindConsecutive(columns[1..], base + 1, id);
    }
  }

  /** In a column list numbered by position, column `id` sits at position `id`. */
  lemma FindNumbered(columns: seq<Column>, id: nat)
    requires forall i :: 0 <= i < |columns| ==> columns[i].id == i
    ensures id < |columns| ==> FindColumn(columns, id) == Some(id)
    ensures id >= |columns| ==> FindColumn(columns, id) == None
  {
    FindConsecutive(columns, 0, id);
  }

  /** Sets the busy marker of the column `$('#column-' + id)` selects, if there is one. */
  function SetBusy(columns: seq<Column>, id: nat, busy: bool): (r: seq<Column>)
    ensures |r| == |columns|
    ensures forall i :: 0 <= i < |r| ==> r[i].id == columns[i].id && r[i].rows == columns[i].rows
    ensures FindColumn(columns, id).Some? ==> r[FindColumn(columns, id).value].busy == busy
    ensures forall i :: 0 <= i < |r| && Some(i) != FindColumn(columns, id) ==> r[i] == columns[i]
  {
    match FindColumn(columns, id)
    case None => columns
    case Some(i) => columns[i := columns[i].(busy := busy)]
  }

  // ---------------------------------------------------------------------------
  // Construction and load
  // ---------------------------------------------------------------------------

  /** `$.extend({ urlAddOnForLoadingNodeChildren: '/children' }, options)`. */
  function MakeOptions(url: Option<string>, childrenSuffix: Option<string>): (o: Options)
    ensures o.url == url
    ensures childrenSuffix.Some? ==> o.childrenSuffix == childrenSuffix.value
    ensures childrenSuffix.None? ==> o.childrenSuffix == DefaultChildrenSuffix
  {
    Options(url, childrenSuffix.GetOr(DefaultChildrenSuffix))
  }

  /** `if (this.options.url)`: a URL is configured and it is not the empty string. */
  function UrlSet(o: Options): (b: bool)
    ensures b <==> o.url.Some? && Truthy(Str(o.url.value))
  {
    o.url.Some? && o.url.value != ""
  }

  /** The fields the constructor sets before it calls `load`. */
  function Initial(o: Options): (t: Tree)
    ensures t.options == o
    ensures t.level == 0 && t.selectedId == None && t.data == map[]
    ensures t.columns == [] && t.current == None
  {
    Tree(o, 0, None, map[], [], None)
  }

  /**
   * The URL `load` requests: the base URL at the root (no truthy `selectedId`), otherwise
   * `url + '/' + selectedId + urlAddOnForLoadingNodeChildren`.
   */
  function RequestUrl(t: Tree): (r: string)
    requires UrlSet(t.options)
    ensures t.options.url.value <= r
    ensures t.selectedId.None? ==> r == t.options.url.value
    ensures t.selectedId.Some? && !Truthy(IdValue(t.selectedId.value)) ==> r == t.options.url.value
    ensures t.selectedId.Some? && Truthy(IdValue(t.selectedId.value)) ==>
      r == t.options.url.value + "/" + IdText(t.selectedId.value) + t.options.childrenSuffix
  {
    if t.selectedId.Some? && Truthy(IdValue(t.selectedId.value)) then
      t.options.url.value + "/" + IdText(t.selectedId.value) + t.options.childrenSuffix
    else t.options.url.value
  }

  /** `addColumn`: appends an empty column numbered with the current level. */
  function AddColumn(t: Tree): (r: Tree)
    ensures r.columns == t.columns + [Column(t.level, false, [])]
    ensures r == t.(columns := r.columns)
  {
    t.(columns := t.columns + [Column(t.level, false, [])])
  }

  /**
   * `load`: without a URL nothing happens. Otherwise a column is added when there are no
   * more columns than the level, the column of the current level becomes `$currentColumn`
   * and is marked busy, and a GET request is issued.
   */
  function Load(t: Tree): (r: Loaded)
    ensures !UrlSet(t.options) ==> r == Loaded(t, None)
    ensures UrlSet(t.options) ==> r.request == Some(RequestUrl(t))
    ensures UrlSet(t.options) ==>
      |r.tree.columns| == if |t.columns| <= t.level then |t.columns| + 1 else |t.columns|
    ensures UrlSet(t.options) ==> r.tree.current == Some(t.level)
    ensures UrlSet(t.options) ==> forall i :: 0 <= i < |t.columns| ==>
      r.tree.columns[i].id == t.columns[i].id && r.tree.columns[i].rows == t.columns[i].rows
    ensures UrlSet(t.options) && FindColumn(r.tree.columns, t.level).Some? ==>
      r.tree.columns[FindColumn(r.tree.columns, t.level).value].busy
    ensures UrlSet(t.options) ==> forall i :: 0 <= i < |t.columns| && Some(i) != FindColumn(r.tree.columns, t.level) ==>
      r.tree.columns[i] == t.columns[i]
    ensures UrlSet(t.options) && |t.columns| <= t.level ==>
      r.tree.columns[|t.columns|].id == t.level && r.tree.columns[|t.columns|].rows == []
    ensures r.tree.level == t.level && r.tree.selectedId == t.selectedId && r.tree.data == t.data
    ensures r.tree.options == t.options
  {
    if !UrlSet(t.options) then Loaded(t, None)
    else
      var t1 := if |t.columns| <= t.level then AddColumn(t) else t;
      Loaded(t1.(columns := SetBusy(t1.columns, t.level, true), current := Some(t.level)), Some(RequestUrl(t)))
  }

  /**
   * `new ColumnTree(container, options)`: throws before any other effect when the container
   * selector matches nothing; otherwise starts at the root with no selection and no data,
   * and calls `load`.
   */
  function Construct(containerExists: bool, url: Option<string>, childrenSuffix: Option<string>): (r: Result<Loaded, Error>)
    ensures !containerExists <==> r == Failure(ContainerMissing)
    ensures r.Success? ==> r.value == Load(Initial(MakeOptions(url, childrenSuffix)))
    ensures r.Success? ==> r.value.tree.level == 0 && r.value.tree.selectedId == None && r.value.tree.data == map[]
  {
    if !containerExists then Failure(ContainerMissing)
    else Success(Load(Initial(MakeOptions(url, childrenSuffix))))
  }

  // ---------------------------------------------------------------------------
  // The response
  // ---------------------------------------------------------------------------

  /** `updateData(data)`: the response becomes the data of the current level. */
  function UpdateData(t: Tree, response: seq<Node>): (r: Tree)
    ensures r.data.Keys == t.data.Keys + {t.level}
    ensures r.data[t.level] == response
    ensures forall k :: k in t.data && k != t.level ==> r.data[k] == t.data[k]
    ensures r == t.(data := r.data)
  {
    t.(data := t.data[t.level := response])
  }

  /** `addRow(node)`: the row element for `node`, with id `row-<id>-<type>`, rendered at `level`. */
  function MakeRow(node: Node, level: nat): (r: Row)
    ensures r.id == node.id && r.nodeType == node.nodeType && r.name == node.name && r.level == level
    ensures r.domId == "row-" + IdText(node.id) + "-" + node.nodeType
  {
    Row("row-" + IdText(node.id) + "-" + node.nodeType, node.id, node.nodeType, node.name, level)
  }

  /** The rows `updateView` appends for `nodes`: one per node, in order. */
  function RowsFor(nodes: seq<Node>, level: nat): (r: seq<Row>)
    ensures |r| == |nodes|
    ensures forall i :: 0 <= i < |r| ==> r[i] == MakeRow(nodes[i], level)
    decreases |nodes|
  {
    if |nodes| == 0 then [] else [MakeRow(nodes[0], level)] + RowsFor(nodes[1..], level)
  }

  /** Replaces the rows of the column `$('#column-' + id + ' .list')` selects, if any. */
  function SetRows(columns: seq<Column>, id: nat, rows: seq<Row>): (r: seq<Column>)
    ensures |r| == |columns|
    ensures forall i :: 0 <= i < |r| ==> r[i].id == columns[i].id && r[i].busy == columns[i].busy
    ensures FindColumn(columns, id).Some? ==> r[FindColumn(columns, id).value].rows == rows
    ensures forall i :: 0 <= i < |r| && Some(i) != FindColumn(columns, id) ==> r[i] == columns[i]
  {
    match FindColumn(columns, id)
    case None => columns
    case Some(i) => columns[i := columns[i].(rows := rows)]
  }

  /**
   * `updateView()`: throws when `$currentColumn` is still null or selects no column;
   * otherwise clears its busy marker, empties the list of the current level's column and
   * fills it with one row per node of the current level's data. Reading the data of a
   * level that has none throws after the list was emptied.
   */
  function UpdateView(t: Tree): (r: Outcome)
    ensures t.current.None? ==> r == Threw(t, TypeError)
    ensures t.current.Some? && FindColumn(t.columns, t.current.value).None? ==> r == Threw(t, ColumnNotFound)
    ensures r.Done? <==> t.current.Some? && FindColumn(t.columns, t.current.value).Some? && t.level in t.data
    ensures r.Done? ==> r.tree == t.(columns :=
      SetRows(SetBusy(t.columns, t.current.value, false), t.level, RowsFor(t.data[t.level], t.level)))
    ensures t.current.Some? && FindColumn(t.columns, t.current.value).Some? && t.level !in t.data ==>
      r == Threw(t.(columns := SetRows(SetBusy(t.columns, t.current.value, false), t.level, [])), TypeError)
  {
    if t.current.None? then Threw(t, TypeError)
    else if FindColumn(t.columns, t.current.value).None? then Threw(t, ColumnNotFound)
    else
      var cleared := SetBusy(t.columns, t.current.value, false);
      if t.level !in t.data then Threw(t.(columns := SetRows(cleared, t.level, [])), TypeError)
      else Done(t.(columns := SetRows(cleared, t.level, RowsFor(t.data[t.level], t.level))))
  }

  /** The success handler of the request `load` issued: `updateData(data)` then `updateView()`. */
  function Respond(t: Tree, response: seq<Node>): (r: Outcome)
    ensures r.tree.data == UpdateData(t, response).data
    ensures r.tree.level == t.level && r.tree.selectedId == t.selectedId && r.tree.current == t.current
    ensures r.Done? <==> t.current.Some? && FindColumn(t.columns, t.current.value).Some?
  {
    UpdateView(UpdateData(t, response))
  }

  /**
   * The error handler of the request: only the busy marker of `$currentColumn` is cleared;
   * data, rows, level and selection stay as they were.
   */
  function RequestFailed(t: Tree): (r: Outcome)
    ensures t.current.None? <==> r == Threw(t, TypeError)
    ensures r.tree == t.(columns := r.tree.columns)
    ensures |r.tree.columns| == |t.columns|
    ensures forall i :: 0 <= i < |t.columns| ==>
      r.tree.columns[i].id == t.columns[i].id && r.tree.columns[i].rows == t.columns[i].rows
    ensures r.Done? && FindColumn(t.columns, t.current.value).Some? ==>
      !r.tree.columns[FindColumn(t.columns, t.current.value).value].busy
    ensures t.current.Some? ==> forall i :: 0 <= i < |t.columns| && Some(i) != FindColumn(t.columns, t.current.value) ==>
      r.tree.columns[i] == t.columns[i]
  {
    if t.current.None? then Threw(t, TypeError)
    else Done(t.(columns := SetBusy(t.columns, t.current.value, false)))
  }

  /** A failed request after `load` leaves the tree as `load` left it, minus the busy marker. */
  lemma LoadThenFailure(t: Tree)
    requires WellFormed(t)
    requires UrlSet(t.options)
    ensures RequestFailed(Load(t).tree).Done?
    ensures WellFormed(RequestFailed(Load(t).tree).tree)
    ensures !RequestFailed(Load(t).tree).tree.columns[t.level].busy
  {
    LoadWellFormed(t);
    FindNumbered(Load(t).tree.columns, t.level);
  }

  // ---------------------------------------------------------------------------
  // Selection
  // ---------------------------------------------------------------------------

  /** Replaces the list of every column numbered above `level` with an empty one. */
  function EmptyDeeper(columns: seq<Column>, level: nat): (r: seq<Column>)
    ensures |r| == |columns|
    ensures forall i :: 0 <= i < |r| ==> r[i].id == columns[i].id && r[i].busy == columns[i].busy
    ensures forall i :: 0 <= i < |r| ==> r[i].rows == if columns[i].id > level then [] else columns[i].rows
    decreases |columns|
  {
    if |columns| == 0 then []
    else
      var c := columns[0];
      [if c.id > level then c.(rows := []) else c] + EmptyDeeper(columns[1..], level)
  }

  /**
   * `select(row)`: records the row's id as the selection and its level as the current
   * level, empties every deeper column (the cached `data` is kept), and for a `folder`
   * row descends one level and loads its children.
   */
  function Select(t: Tree, row: Row): (r: Loaded)
    ensures r.tree.selectedId == Some(row.id)
    ensures r.tree.data == t.data && r.tree.options == t.options
    ensures r.tree.level == if row.nodeType == Folder then row.level + 1 else row.level
    ensures row.nodeType != Folder ==> r.request == None && r.tree.current == t.current
    ensures row.nodeType != Folder ==> r.tree.columns == EmptyDeeper(t.columns, row.level)
    ensures row.nodeType == Folder ==>
      r == Load(t.(selectedId := Some(row.id), level := row.level + 1, columns := EmptyDeeper(t.columns, row.level)))
  {
    var t1 := Selected(t, row);
    if row.nodeType == Folder then Load(t1.(level := row.level + 1)) else Loaded(t1, None)
  }

  // ---------------------------------------------------------------------------
  // The invariant the transitions keep
  // ---------------------------------------------------------------------------

  /**
   * The layout every reachable tree keeps: columns are numbered by position, every row
   * sits in the column of its level, the level never exceeds the column count, and
   * `$currentColumn`, once set, names an existing column and was set because a URL is
   * configured.
   */
  ghost predicate Laid(t: Tree) {
    && (forall i :: 0 <= i < |t.columns| ==> t.columns[i].id == i)
    && (forall i, j :: 0 <= i < |t.columns| && 0 <= j < |t.columns[i].rows| ==> t.columns[i].rows[j].level == i)
    && t.level <= |t.columns|
    && (t.current.Some? ==> t.current.value < |t.columns| && UrlSet(t.options))
  }

  /** A reachable tree: laid out, and after a load the current level has a column. */
  ghost predicate WellFormed(t: Tree) {
    Laid(t) && (t.current.Some? ==> t.level < |t.columns|)
  }

  /** A freshly constructed tree is well formed. */
  lemma ConstructWellFormed(containerExists: bool, url: Option<string>, childrenSuffix: Option<string>)
    requires containerExists
    ensures WellFormed(Construct(containerExists, url, childrenSuffix).value.tree)
  {
    var t := Initial(MakeOptions(url, childrenSuffix));
    LoadWellFormed(t);
  }

  /**
   * `load` keeps the tree well formed; with a URL set it adds a column exactly when the
   * column count equals the level, leaves at least `level + 1` columns, and the current
   * level's column is `$currentColumn` and busy.
   */
  lemma LoadWellFormed(t: Tree)
    requires Laid(t)
    ensures WellFormed(Load(t).tree)
    ensures UrlSet(t.options) ==> |Load(t).tree.columns| == (if |t.columns| == t.level then t.level + 1 else |t.columns|)
    ensures UrlSet(t.options) ==> t.level < |Load(t).tree.columns| && Load(t).tree.columns[t.level].busy
  {
    if UrlSet(t.options) {
      var t1 := if |t.columns| <= t.level then AddColumn(t) else t;
      assert forall i :: 0 <= i < |t1.columns| ==> t1.columns[i].id == i;
      FindNumbered(t1.columns, t.level);
    }
  }

  /**
   * With `$currentColumn` set, the response is always handled without throwing: the data
   * of the current level becomes the response, the current column is no longer busy and
   * holds exactly one row per node, in order, and the tree stays well formed.
   */
  lemma RespondWellFormed(t: Tree, response: seq<Node>)
    requires WellFormed(t)
    requires t.current.Some?
    ensures Respond(t, response).Done?
    ensures WellFormed(Respond(t, response).tree)
    ensures Respond(t, response).tree.columns[t.level].rows == RowsFor(response, t.level)
    ensures !Respond(t, response).tree.columns[t.current.value].busy
    ensures forall i :: 0 <= i < |t.columns| && i != t.level ==>
      Respond(t, response).tree.columns[i].rows == t.columns[i].rows
  {
    FindNumbered(t.columns, t.current.value);
    var cleared := SetBusy(t.columns, t.current.value, false);
    FindNumbered(cleared, t.level);
    var r := Respond(t, response).tree;
    forall i, j | 0 <= i < |r.columns| && 0 <= j < |r.columns[i].rows|
      ensures r.columns[i].rows[j].level == i
    {
      if i == t.level {
        assert r.columns[i].rows == RowsFor(response, t.level);
      } else {
        assert r.columns[i].rows == t.columns[i].rows;
      }
    }
  }

  /** The state `select` reaches before it decides whether to descend. */
  function Selected(t: Tree, row: Row): Tree {
    t.(selectedId := Some(row.id), level := row.level, columns := EmptyDeeper(t.columns, row.level))
  }

  /** Recording a selection of a row in the tree keeps it well formed. */
  lemma SelectedWellFormed(t: Tree, row: Row)
    requires WellFormed(t)
    requires row.level < |t.columns|
    ensures WellFormed(Selected(t, row))
  {
    var cols := EmptyDeeper(t.columns, row.level);
    forall i, j | 0 <= i < |cols| && 0 <= j < |cols[i].rows|
      ensures cols[i].rows[j].level == i
    {
      assert cols[i].rows == t.columns[i].rows;
    }
  }

  /**
   * Selecting a row of the tree keeps it well formed; rows of columns above the row's
   * level are gone and the other columns keep theirs.
   */
  lemma SelectWellFormed(t: Tree, row: Row)
    requires WellFormed(t)
    requires row.level < |t.columns|
    ensures WellFormed(Select(t, row).tree)
    ensures forall i :: row.level < i < |t.columns| ==> Select(t, row).tree.columns[i].rows == []
    ensures forall i :: 0 <= i <= row.level ==> Select(t, row).tree.columns[i].rows == t.columns[i].rows
  {
    var t1 := Selected(t, row);
    SelectedWellFormed(t, row);
    if row.nodeType == Folder {
      var t2 := t1.(level := row.level + 1);
      assert Laid(t2);
      LoadWellFormed(t2);
      assert Select(t, row) == Load(t2);
    } else {
      assert Select(t, row).tree == t1;
    }
  }

  // ---------------------------------------------------------------------------
  // Requests and row ids
  // ---------------------------------------------------------------------------

  /** Before anything is selected `load` requests the base URL. */
  lemma RootRequest(t: Tree)
    requires UrlSet(t.options)
    requires t.selectedId == None
    ensures Load(t).request == t.options.url
  {
  }

  /**
   * Selecting a folder with a truthy id requests that node's children at
   * `url + '/' + id + urlAddOnForLoadingNodeChildren`.
   */
  lemma FolderRequest(t: Tree, row: Row)
    requires UrlSet(t.options)
    requires row.nodeType == Folder
    requires Truthy(IdValue(row.id))
    ensures Select(t, row).request == Some(t.options.url.value + "/" + IdText(row.id) + t.options.childrenSuffix)
  {
  }

  /**
   * A folder whose id is falsy (`0` or `""`) is indistinguishable from no selection, so
   * selecting it requests the base URL again, one level deeper.
   */
  lemma FalsyFolderRequestsRoot(t: Tree, row: Row)
    requires UrlSet(t.options)
    requires row.nodeType == Folder
    requires !Truthy(IdValue(row.id))
    ensures Select(t, row).request == t.options.url
  {
  }

  /** Selecting anything but a folder issues no request and keeps the row's level. */
  lemma LeafSelectStays(t: Tree, row: Row)
    requires row.nodeType != Folder
    ensures Select(t, row).request == None
    ensures Select(t, row).tree.level == row.level
  {
  }

  /** Stripping a common prefix and suffix from two equal strings leaves equal middles. */
  lemma StripAffixes(p: string, a: string, b: string, q: string)
    requires p + a + q == p + b + q
    ensures a == b
  {
    var x, y := p + a + q, p + b + q;
    assert |a| == |b|;
    forall i | 0 <= i < |a| ensures a[i] == b[i] {
      assert x[|p| + i] == a[i];
      assert y[|p| + i] == b[i];
    }
  }

  /** Distinct numbers give distinct child URLs under one base URL and suffix. */
  lemma ChildUrlsDiffer(o: Options, n1: int, n2: int)
    requires UrlSet(o)
    requires n1 != n2
    ensures o.url.value + "/" + Decimal.IntToString(n1) + o.childrenSuffix
         != o.url.value + "/" + Decimal.IntToString(n2) + o.childrenSuffix
  {
    if o.url.value + "/" + Decimal.IntToString(n1) + o.childrenSuffix
       == o.url.value + "/" + Decimal.IntToString(n2) + o.childrenSuffix {
      StripAffixes(o.url.value + "/", Decimal.IntToString(n1), Decimal.IntToString(n2), o.childrenSuffix);
      Decimal.IntToStringInjective(n1, n2);
    }
  }

  /**
   * Selecting two folders with distinct numeric ids issues distinct requests: both truthy
   * ids give distinct child URLs, and an id `0` requests the base URL, which is shorter
   * than any child URL.
   */
  lemma ChildUrlsDistinct(t: Tree, r1: Row, r2: Row)
    requires UrlSet(t.options)
    requires r1.nodeType == Folder && r2.nodeType == Folder
    requires r1.id.Number? && r2.id.Number? && r1.id != r2.id
    ensures Select(t, r1).request.Some? && Select(t, r2).request.Some?
    ensures Select(t, r1).request != Select(t, r2).request
  {
    var u1 := FolderUrl(t, r1);
    var u2 := FolderUrl(t, r2);
    var base := t.options.url.value;
    if Truthy(IdValue(r1.id)) && Truthy(IdValue(r2.id)) {
      ChildUrlsDiffer(t.options, r1.id.n, r2.id.n);
    } else if Truthy(IdValue(r1.id)) {
      assert |u1| > |base| == |u2|;
    } else {
      assert |u2| > |base| == |u1|;
    }
  }

  /** The URL selecting a folder requests: its child URL for a truthy id, the base URL otherwise. */
  lemma FolderUrl(t: Tree, row: Row) returns (u: string)
    requires UrlSet(t.options)
    requires row.nodeType == Folder
    ensures Select(t, row).request == Some(u)
    ensures Truthy(IdValue(row.id)) ==> u == t.options.url.value + "/" + IdText(row.id) + t.options.childrenSuffix
    ensures !Truthy(IdValue(row.id)) ==> u == t.options.url.value
  {
    if Truthy(IdValue(row.id)) {
      FolderRequest(t, row);
      u := t.options.url.value + "/" + IdText(row.id) + t.options.childrenSuffix;
    } else {
      FalsyFolderRequestsRoot(t, row);
      u := t.options.url.value;
    }
  }

  /** Nodes of one type with distinct numeric ids get distinct row element ids. */
  lemma RowIdsDistinct(a: Node, b: Node, level: nat)
    requires a.id.Number? && b.id.Number? && a.id != b.id
    requires a.nodeType == b.nodeType
    ensures MakeRow(a, level).domId != MakeRow(b, level).domId
  {
    var x, y, suffix := Decimal.IntToString(a.id.n), Decimal.IntToString(b.id.n), "-" + a.nodeType;
    assert MakeRow(a, level).domId == "row-" + x + suffix by {
      assert "row-" + x + "-" + a.nodeType == "row-" + x + suffix;
    }
    assert MakeRow(b, level).domId == "row-" + y + suffix by {
      assert "row-" + y + "-" + a.nodeType == "row-" + y + suffix;
    }
    if "row-" + x + suffix == "row-" + y + suffix {
      StripAffixes("row-", x, y, suffix);
      Decimal.IntToStringInjective(a.id.n, b.id.n);
    }
  }

  // ---------------------------------------------------------------------------
  // The navigation scenario of the widget tests
  // ---------------------------------------------------------------------------

  /** The root response of the test endpoint `/nodes`. */
  function RootNodes(): seq<Node> {
    [Node(Number(1), "page", "Home"), Node(Number(2), "folder", "News")]
  }

  /** The response of `/nodes/2/children`. */
  function NewsNodes(): seq<Node> {
    [Node(Number(3), "start-page", "News"),
     Node(Number(4), "page", "New major release ZOOLU 2.0"),
     Node(Number(5), "folder", "Archive")]
  }

  /** The root rows once `/nodes` has answered. */
  function RootRows(): seq<Row> {
    [Row("row-1-page", Number(1), "page", "Home", 0), Row("row-2-folder", Number(2), "folder", "News", 0)]
  }

  /** The state right after construction on `/nodes`: one busy, empty column. */
  function Started(): Tree {
    Tree(Options(Some("/nodes"), "/children"), 0, None, map[], [Column(0, true, [])], Some(0))
  }

  /** The state once the root response is shown. */
  function RootShown(): Tree {
    Started().(data := map[0 := RootNodes()], columns := [Column(0, false, RootRows())])
  }

  /** The state right after clicking `row-2-folder`: a second, busy column at level 1. */
  function FolderOpened(): Tree {
    RootShown().(level := 1, selectedId := Some(Number(2)),
                 columns := [Column(0, false, RootRows()), Column(1, true, [])], current := Some(1))
  }

  /** Constructing on `/nodes` adds column 0, marks it busy and requests `/nodes`. */
  lemma ScenarioConstruct()
    ensures Construct(true, Some("/nodes"), None) == Success(Loaded(Started(), Some("/nodes")))
  {
    var t := Initial(MakeOptions(Some("/nodes"), None));
    assert UrlSet(t.options);
    var cols := AddColumn(t).columns;
    assert cols == [Column(0, false, [])];
    assert FindColumn(cols, 0) == Some(0);
    assert SetBusy(cols, 0, true) == [Column(0, true, [])];
    assert RequestUrl(t) == "/nodes";
  }

  /** The root response fills column 0 with the rows `row-1-page` and `row-2-folder`. */
  lemma ScenarioRootResponse()
    ensures Respond(Started(), RootNodes()) == Done(RootShown())
  {
    assert Decimal.IntToString(1) == "1";
    assert Decimal.IntToString(2) == "2";
    var nodes := RootNodes();
    assert MakeRow(nodes[0], 0) == RootRows()[0];
    assert MakeRow(nodes[1], 0) == RootRows()[1];
    var rows := RowsFor(nodes, 0);
    assert rows == RootRows();
    var t := UpdateData(Started(), nodes);
    assert FindColumn(t.columns, 0) == Some(0);
    var cleared := SetBusy(t.columns, 0, false);
    assert cleared == [Column(0, false, [])];
    assert FindColumn(cleared, 0) == Some(0);
    assert SetRows(cleared, 0, rows) == [Column(0, false, RootRows())];
  }

  /** Clicking `row-2-folder` adds column 1 at level 1 and requests `/nodes/2/children`. */
  lemma ScenarioSelectFolder()
    ensures Select(RootShown(), RootRows()[1]) == Loaded(FolderOpened(), Some("/nodes/2/children"))
  {
    assert Decimal.IntToString(2) == "2";
    var row := RootRows()[1];
    var t1 := Selected(RootShown(), row);
    assert t1.columns == [Column(0, false, RootRows())];
    var t2 := t1.(level := 1);
    assert UrlSet(t2.options);
    assert RequestUrl(t2) == "/nodes/2/children";
    var cols := AddColumn(t2).columns;
    assert cols == [Column(0, false, RootRows()), Column(1, false, [])];
    FindNumbered(cols, 1);
    assert SetBusy(cols, 1, true) == [Column(0, false, RootRows()), Column(1, true, [])];
  }

  /** A response for level 1 while column 1 is current fills that column and frees it. */
  lemma RespondSecondColumn(t: Tree, first: Column, response: seq<Node>)
    requires first.id == 0 && t.columns == [first, Column(1, true, [])]
    requires t.level == 1 && t.current == Some(1)
    ensures Respond(t, response)
         == Done(t.(data := t.data[1 := response], columns := [first, Column(1, false, RowsFor(response, 1))]))
  {
    var u := UpdateData(t, response);
    FindNumbered(u.columns, 1);
    var cleared := SetBusy(u.columns, 1, false);
    assert cleared == [first, Column(1, false, [])];
    FindNumbered(cleared, 1);
    assert SetRows(cleared, 1, RowsFor(response, 1)) == [first, Column(1, false, RowsFor(response, 1))];
  }

  /** The children response fills column 1 with three rows and leaves column 0 alone. */
  lemma ScenarioChildrenResponse()
    ensures Respond(FolderOpened(), NewsNodes())
         == Done(FolderOpened().(data := map[0 := RootNodes(), 1 := NewsNodes()],
                                 columns := [Column(0, false, RootRows()), Column(1, false, RowsFor(NewsNodes(), 1))]))
    ensures |RowsFor(NewsNodes(), 1)| == 3
  {
    var t := FolderOpened();
    RespondSecondColumn(t, Column(0, false, RootRows()), NewsNodes());
    assert t.data[1 := NewsNodes()] == map[0 := RootNodes(), 1 := NewsNodes()];
  }
}

=== FILE: cookie_store.dfy ===
/**
 * `ZOOLU.STORE.Cookie`: a lazily created singleton holding a flat property map. Every
 * `set` writes the whole map back to the `ZOOLU` cookie; `get` reads from the map and
 * turns missing and falsy values into `null`. The cookie's JSON text is represented by
 * the map it encodes.
 */
module CookieStore {
  import opened Wrappers
  import opened JsValue

  /** The `properties` object: key to stored value. */
  type Properties = map<string, Value>

  /**
   * A store instance: its property map, and the map the `ZOOLU` cookie currently encodes
   * (`None` while the cookie is absent).
   */
  datatype Store = Store(properties: Properties, cookie: Option<Properties>)

  /** The cookie holds a copy of exactly the in-memory map. */
  predicate Persisted(s: Store) {
    s.cookie == Some(s.properties)
  }

  /** `init`: start from the map the cookie encodes, or from an empty map when there is none. */
  function Init(cookie: Option<Properties>): (s: Store)
    ensures cookie.Some? ==> s.properties == cookie.value && Persisted(s)
    ensures cookie.None? ==> s.properties == map[] && s.cookie == None
  {
    Store(cookie.GetOr(map[]), cookie)
  }

  /** `set(key, value)`: store the value under `key` and write the whole map to the cookie. */
  function Set(s: Store, key: string, value: Value): (r: Store)
    ensures key in r.properties && r.properties[key] == value
    ensures r.properties.Keys == s.properties.Keys + {key}
    ensures forall k :: k in s.properties && k != key ==> r.properties[k] == s.properties[k]
    ensures Persisted(r)
  {
    var properties := s.properties[key := value];
    Store(properties, Some(properties))
  }

  /** `get(key)`: the stored value when it is truthy, `null` otherwise. */
  function Get(s: Store, key: string): (r: Value)
    ensures r == Null || (key in s.properties && r == s.properties[key] && Truthy(r))
    ensures key in s.properties && Truthy(s.properties[key]) ==> r == s.properties[key]
  {
    if key in s.properties && Truthy(s.properties[key]) then s.properties[key] else Null
  }

  /** A truthy value written with `set` is read back by `get`. */
  lemma GetAfterSet(s: Store, key: string, value: Value)
    requires Truthy(value)
    ensures Get(Set(s, key, value), key) == value
  {
  }

  /** A falsy value (`0`, `false`, `""`, `null`, `undefined`) written with `set` reads back as `null`. */
  lemma GetAfterSetFalsy(s: Store, key: string, value: Value)
    requires !Truthy(value)
    ensures Get(Set(s, key, value), key) == Null
  {
  }

  /** A key that was never stored reads as `null`. */
  lemma GetMissing(s: Store, key: string)
    requires key !in s.properties
    ensures Get(s, key) == Null
  {
  }

  /** `set` on one key leaves what every other key reads unchanged. */
  lemma SetOtherKey(s: Store, key: string, other: string, value: Value)
    requires other != key
    ensures Get(Set(s, key, value), other) == Get(s, other)
  {
  }

  /** Last write wins: a second `set` on the same key overwrites the first completely. */
  lemma SetOverwrites(s: Store, key: string, v1: Value, v2: Value)
    ensures Set(Set(s, key, v1), key, v2) == Set(s, key, v2)
  {
    assert s.properties[key := v1][key := v2] == s.properties[key := v2];
  }

  /** Writes to different keys can be made in either order. */
  lemma SetsCommute(s: Store, k1: string, v1: Value, k2: string, v2: Value)
    requires k1 != k2
    ensures Set(Set(s, k1, v1), k2, v2) == Set(Set(s, k2, v2), k1, v1)
  {
    assert s.properties[k1 := v1][k2 := v2] == s.properties[k2 := v2][k1 := v1];
  }

  // ---------------------------------------------------------------------------
  // A sequence of writes
  // ---------------------------------------------------------------------------

  /** One `set(key, value)` call. */
  datatype Write = Write(key: string, value: Value)

  /** The store after the writes of `writes`, made in order. */
  function SetAll(s: Store, writes: seq<Write>): Store
    decreases |writes|
  {
    if |writes| == 0 then s
    else SetAll(Set(s, writes[0].key, writes[0].value), writes[1..])
  }

  /** The value of the last write to `key` in `writes`, if there is one. */
  function LastWrite(writes: seq<Write>, key: string): Option<Value>
    decreases |writes|
  {
    if |writes| == 0 then None
    else if writes[|writes| - 1].key == key then Some(writes[|writes| - 1].value)
    else LastWrite(writes[..|writes| - 1], key)
  }

  /** The store after `writes`, obtained by adding the last write to the earlier ones. */
  lemma {:induction false} SetAllSnoc(s: Store, writes: seq<Write>, w: Write)
    ensures SetAll(s, writes + [w]) == Set(SetAll(s, writes), w.key, w.value)
    decreases |writes|
  {
    if |writes| == 0 {
      assert writes + [w] == [w];
    } else {
      assert (writes + [w])[1..] == writes[1..] + [w];
      SetAllSnoc(Set(s, writes[0].key, writes[0].value), writes[1..], w);
    }
  }

  /**
   * Reading after any sequence of writes: a key reads as its last write (or `null` when
   * that value is falsy); a key never written reads as it did before.
   */
  lemma {:induction false} GetAfterWrites(s: Store, writes: seq<Write>, key: string)
    ensures LastWrite(writes, key).Some? ==>
      Get(SetAll(s, writes), key) == (if Truthy(LastWrite(writes, key).value) then LastWrite(writes, key).value else Null)
    ensures LastWrite(writes, key).None? ==> Get(SetAll(s, writes), key) == Get(s, key)
    decreases |writes|
  {
    if |writes| > 0 {
      var init, w := writes[..|writes| - 1], writes[|writes| - 1];
      assert writes == init + [w];
      SetAllSnoc(s, init, w);
      GetAfterWrites(s, init, key);
    }
  }

  /** After at least one write the cookie always holds exactly the in-memory map. */
  lemma {:induction false} WritesPersist(s: Store, writes: seq<Write>)
    requires |writes| > 0
    ensures Persisted(SetAll(s, writes))
  {
    var init, w := writes[..|writes| - 1], writes[|writes| - 1];
    assert writes == init + [w];
    SetAllSnoc(s, init, w);
  }

  // ---------------------------------------------------------------------------
  // The singleton
  // ---------------------------------------------------------------------------

  /** The closure behind `ZOOLU.STORE.Cookie`: the instance, once created. */
  datatype Singleton = Singleton(instance: Option<Store>)

  /**
   * `getInstance()`: the first call reads `cookie` and creates the instance; every later
   * call returns that instance and ignores the cookie.
   */
  function GetInstance(m: Singleton, cookie: Option<Properties>): (r: (Singleton, Store))
    ensures r.0.instance == Some(r.1)
    ensures m.instance.Some? ==> r.0 == m && r.1 == m.instance.value
    ensures m.instance.None? ==> r.1 == Init(cookie)
  {
    if m.instance.None? then
      var s := Init(cookie);
      (Singleton(Some(s)), s)
    else (m, m.instance.value)
  }

  /** Two calls return the same instance, whatever the cookie holds at the second call. */
  lemma GetInstanceOnce(m: Singleton, c1: Option<Properties>, c2: Option<Properties>)
    ensures GetInstance(GetInstance(m, c1).0, c2) == GetInstance(m, c1)
  {
  }

  /**
   * `getInstance().set(key, value)`: the write goes to the one shared instance, so the
   * singleton afterwards holds the written store.
   */
  function InstanceSet(m: Singleton, cookie: Option<Properties>, key: string, value: Value): (r: Singleton)
    ensures r.instance.Some? && Persisted(r.instance.value)
    ensures r.instance.value.properties.Keys == GetInstance(m, cookie).1.properties.Keys + {key}
    ensures Get(r.instance.value, key) == if Truthy(value) then value else Null
    ensures forall k :: k != key ==> Get(r.instance.value, k) == Get(GetInstance(m, cookie).1, k)
  {
    Singleton(Some(Set(GetInstance(m, cookie).1, key, value)))
  }

  /** `getInstance().get(key)`: the singleton after the call and the value read. */
  function InstanceGet(m: Singleton, cookie: Option<Properties>, key: string): (r: (Singleton, Value))
    ensures r.0 == GetInstance(m, cookie).0 && r.0.instance.Some?
    ensures m.instance.Some? ==> r.0 == m && r.1 == Get(m.instance.value, key)
    ensures m.instance.None? ==> r.1 == Get(Init(cookie), key)
  {
    var (created, s) := GetInstance(m, cookie);
    (created, Get(s, key))
  }

  /** The calls `getInstance().set(w.key, w.value)` for each write of `writes`, in order. */
  function InstanceSetAll(m: Singleton, cookie: Option<Properties>, writes: seq<Write>): Singleton
    decreases |writes|
  {
    if |writes| == 0 then m
    else InstanceSetAll(InstanceSet(m, cookie, writes[0].key, writes[0].value), cookie, writes[1..])
  }

  /** Writes made through successive `getInstance()` calls all land in the one shared store. */
  lemma {:induction false} InstanceSetAllShares(m: Singleton, cookie: Option<Properties>, writes: seq<Write>)
    requires |writes| > 0
    ensures InstanceSetAll(m, cookie, writes).instance == Some(SetAll(GetInstance(m, cookie).1, writes))
    decreases |writes|
  {
    var w, rest := writes[0], writes[1..];
    var m1 := InstanceSet(m, cookie, w.key, w.value);
    var s1 := Set(GetInstance(m, cookie).1, w.key, w.value);
    assert m1.instance == Some(s1);
    if |rest| == 0 {
      assert SetAll(s1, rest) == s1;
    } else {
      InstanceSetAllShares(m1, cookie, rest);
      assert GetInstance(m1, cookie).1 == s1;
    }
  }

  /**
   * A later `getInstance().get(key)` sees every earlier `getInstance().set`: the key reads
   * as its last write (or `null` when that value is falsy), and a key never written reads
   * as the instance first held it.
   */
  lemma SharedInstanceReads(m: Singleton, cookie: Option<Properties>, later: Option<Properties>, writes: seq<Write>, key: string)
    requires |writes| > 0
    ensures LastWrite(writes, key).Some? ==>
      InstanceGet(InstanceSetAll(m, cookie, writes), later, key).1
        == (if Truthy(LastWrite(writes, key).value) then LastWrite(writes, key).value else Null)
    ensures LastWrite(writes, key).None? ==>
      InstanceGet(InstanceSetAll(m, cookie, writes), later, key).1 == Get(GetInstance(m, cookie).1, key)
  {
    InstanceSetAllShares(m, cookie, writes);
    GetAfterWrites(GetInstance(m, cookie).1, writes, key);
  }

  /** The scenario of the store tests: a string set through the instance lands in the cookie and reads back. */
  lemma StoreScenario(cookie: Option<Properties>, key: string, text: string)
    requires text != ""
    ensures
      var s := Set(GetInstance(Singleton(None), cookie).1, key, Str(text));
      s.cookie.Some? && key in s.cookie.value && s.cookie.value[key] == Str(text)
      && Get(s, key) == Str(text)
  {
  }
}

=== FILE: decimal.dfy ===
/**
 * How JavaScript renders an integer when it is concatenated to a string (`'row-' + 12`):
 * decimal digits without leading zeros, with a leading `-` for negative numbers.
 */
module Decimal {

  /** The digit character for `d`. */
  function DigitChar(d: nat): (c: char)
    requires d < 10
    ensures '0' <= c <= '9'
    ensures c as int - '0' as int == d
  {
    (d + '0' as int) as char
  }

  /** The value of a digit character. */
  function DigitValue(c: char): nat
    requires '0' <= c <= '9'
  {
    c as int - '0' as int
  }

  /** Every character of `s` is a decimal digit. */
  predicate AllDigits(s: string) {
    forall i :: 0 <= i < |s| ==> '0' <= s[i] <= '9'
  }

  /** The decimal digits of `n`, most significant first. */
  function NatToString(n: nat): (s: string)
    ensures |s| >= 1
    ensures AllDigits(s)
    ensures n > 0 ==> s[0] != '0'
    decreases n
  {
    if n < 10 then [DigitChar(n)] else NatToString(n / 10) + [DigitChar(n % 10)]
  }

  /** The number a string of decimal digits denotes. */
  function ParseDigits(s: string): nat
    requires AllDigits(s)
    decreases |s|
  {
    if |s| == 0 then 0 else 10 * ParseDigits(s[..|s| - 1]) + DigitValue(s[|s| - 1])
  }

  /** Reading back the digits of `n` gives `n`. */
  lemma {:induction false} ParseNatToString(n: nat)
    ensures ParseDigits(NatToString(n)) == n
    decreases n
  {
    var s := NatToString(n);
    if n >= 10 {
      ParseNatToString(n / 10);
      assert s[..|s| - 1] == NatToString(n / 10);
    }
  }

  /** `String(i)` for an integer `i`. */
  function IntToString(i: int): (s: string)
    ensures |s| >= 1
    ensures i >= 0 <==> AllDigits(s)
    ensures i < 0 ==> s[0] == '-' && AllDigits(s[1..])
  {
    if i < 0 then
      var s := "-" + NatToString(-i);
      assert s[0] == '-' && s[1..] == NatToString(-i);
      s
    else NatToString(i)
  }

  /** A negative number renders as `-` followed by the digits of its magnitude. */
  lemma NegativeDigits(i: int)
    requires i < 0
    ensures IntToString(i)[1..] == NatToString(-i)
  {
  }

  /** Distinct integers have distinct renderings. */
  lemma IntToStringInjective(a: int, b: int)
    requires IntToString(a) == IntToString(b)
    ensures a == b
  {
    var s := IntToString(a);
    assert a >= 0 <==> b >= 0 by {
      assert a >= 0 <==> AllDigits(s);
      assert b >= 0 <==> AllDigits(s);
    }
    if a < 0 {
      NegativeDigits(a);
      NegativeDigits(b);
      ParseNatToString(-a);
      ParseNatToString(-b);
    } else {
      ParseNatToString(a);
      ParseNatToString(b);
    }
  }
}

=== FILE: js_value.dfy ===
/**
 * The JavaScript values the toolkit stores and passes around, reduced to what its
 * logic inspects: identity (`===`) and truthiness.
 */
module JsValue {

  /** An opaque identity for a function object; two callbacks are `===` iff their ids agree. */
  type CallbackId = nat

  /**
   * A JavaScript value. Numbers are restricted to integers (NaN and -0 are not modelled),
   * and every non-function object is an opaque reference.
   */
  datatype Value =
    | Undefined
    | Null
    | Bool(b: bool)
    | Num(n: int)
    | Str(s: string)
    | Fn(id: CallbackId)
    | Obj(ref: nat)

  /** JavaScript's ToBoolean: `undefined`, `null`, `false`, `0` and `""` are falsy. */
  predicate Truthy(v: Value) {
    match v
    case Undefined => false
    case Null => false
    case Bool(b) => b
    case Num(n) => n != 0
    case Str(s) => s != ""
    case Fn(_) => true
    case Obj(_) => true
  }

  /** `v instanceof Function`: only function objects are callable. */
  predicate Callable(v: Value) {
    v.Fn?
  }
}

=== FILE: listeners.dfy ===
/**
 * The listener registry shared by both event APIs of the toolkit: a map from an event
 * name to the ordered list of callbacks bound to it. Callbacks are opaque identities and
 * have no side effects, so triggering an event is described by the ordered list of
 * invocations it performs.
 */
module Listeners {
  import opened Wrappers
  import opened JsValue

  /** The `listeners` object: event name to callbacks, in registration order. */
  type Registry = map<string, seq<CallbackId>>

  /** One call `callback.apply(window, args)` made while an event is dispatched. */
  datatype Invocation = Invocation(callback: CallbackId, args: seq<Value>)

  /** The callbacks bound to `event`, or none when the registry has no entry for it. */
  function ListenersOf(reg: Registry, event: string): seq<CallbackId> {
    if event in reg then reg[event] else []
  }

  /** `callback === entry` for a registered entry: only the very same function object matches. */
  predicate Identical(callback: Value, entry: CallbackId) {
    callback == Fn(entry)
  }

  /** How many times `c` occurs in `l`. */
  function Count(l: seq<CallbackId>, c: CallbackId): nat {
    multiset(l)[c]
  }

  // ---------------------------------------------------------------------------
  // Removing a callback: the copy loop of `off`
  // ---------------------------------------------------------------------------

  /**
   * The list `off` builds when it is given a callback: every entry that is not identical
   * to `callback`, in the order they were registered.
   */
  function Without(l: seq<CallbackId>, callback: Value): (r: seq<CallbackId>)
    ensures |r| <= |l|
    ensures forall k :: 0 <= k < |r| ==> !Identical(callback, r[k])
    decreases |l|
  {
    if |l| == 0 then []
    else
      var init, last := l[..|l| - 1], l[|l| - 1];
      Without(init, callback) + (if Identical(callback, last) then [] else [last])
  }

  /**
   * Removal drops every entry identical to `callback` and keeps every other callback
   * exactly as often as it was listed.
   */
  lemma {:induction false} WithoutCounts(l: seq<CallbackId>, callback: Value)
    ensures forall c :: Count(Without(l, callback), c) == if Identical(callback, c) then 0 else Count(l, c)
    decreases |l|
  {
    if |l| > 0 {
      var init, last := l[..|l| - 1], l[|l| - 1];
      assert l == init + [last];
      WithoutCounts(init, callback);
      assert multiset(l) == multiset(init) + multiset{last};
      var tail := if Identical(callback, last) then [] else [last];
      assert Without(l, callback) == Without(init, callback) + tail;
      assert multiset(Without(l, callback)) == multiset(Without(init, callback)) + multiset(tail);
    }
  }

  /** Membership after removal: exactly the entries that are not identical to `callback` stay. */
  lemma WithoutMembers(l: seq<CallbackId>, callback: Value, c: CallbackId)
    ensures c in Without(l, callback) <==> c in l && !Identical(callback, c)
  {
    WithoutCounts(l, callback);
    assert Count(Without(l, callback), c) > 0 <==> c in Without(l, callback);
    assert Count(l, c) > 0 <==> c in l;
  }

  /** `idx` lists strictly increasing positions of `b` at which the elements of `a` sit. */
  ghost predicate Embedding(a: seq<CallbackId>, b: seq<CallbackId>, idx: seq<int>) {
    && |idx| == |a|
    && (forall k :: 0 <= k < |idx| ==> 0 <= idx[k] < |b| && a[k] == b[idx[k]])
    && (forall k, m :: 0 <= k < m < |idx| ==> idx[k] < idx[m])
  }

  /** `a` is `b` with some entries dropped and the rest in their original relative order. */
  ghost predicate SubsequenceOf(a: seq<CallbackId>, b: seq<CallbackId>) {
    exists idx :: Embedding(a, b, idx)
  }

  /** The positions in `l` of the entries `Without(l, callback)` keeps. */
  function KeptPositions(l: seq<CallbackId>, callback: Value): (idx: seq<int>)
    ensures |idx| == |Without(l, callback)|
    ensures forall k :: 0 <= k < |idx| ==> 0 <= idx[k] < |l|
    decreases |l|
  {
    if |l| == 0 then []
    else
      KeptPositions(l[..|l| - 1], callback)
        + (if Identical(callback, l[|l| - 1]) then [] else [|l| - 1])
  }

  /** Extending an embedding of `a` into `b` by one element of `b` found after all the others. */
  lemma EmbeddingExtend(a: seq<CallbackId>, b: seq<CallbackId>, idx: seq<int>, x: CallbackId)
    requires Embedding(a, b, idx)
    ensures Embedding(a, b + [x], idx)
    ensures Embedding(a + [x], b + [x], idx + [|b|])
  {
    var b', a', idx' := b + [x], a + [x], idx + [|b|];
    forall k | 0 <= k < |idx|
      ensures 0 <= idx[k] < |b'| && a[k] == b'[idx[k]]
    {
      assert b'[idx[k]] == b[idx[k]];
    }
    forall k | 0 <= k < |idx'|
      ensures 0 <= idx'[k] < |b'| && a'[k] == b'[idx'[k]]
    {
      if k < |idx| {
        assert idx'[k] == idx[k] && a'[k] == a[k];
        assert b'[idx[k]] == b[idx[k]];
      }
    }
  }

  /** `off(e, cb)` keeps the remaining listeners in their original relative order. */
  lemma {:induction false} WithoutKeepsOrder(l: seq<CallbackId>, callback: Value)
    ensures Embedding(Without(l, callback), l, KeptPositions(l, callback))
    ensures SubsequenceOf(Without(l, callback), l)
    decreases |l|
  {
    if |l| == 0 {
      assert Embedding([], [], []);
    } else {
      var init, last := l[..|l| - 1], l[|l| - 1];
      assert l == init + [last];
      WithoutKeepsOrder(init, callback);
      var r0, idx0 := Without(init, callback), KeptPositions(init, callback);
      EmbeddingExtend(r0, init, idx0, last);
      if Identical(callback, last) {
        assert Without(l, callback) == r0;
        assert KeptPositions(l, callback) == idx0;
      } else {
        assert Without(l, callback) == r0 + [last];
        assert KeptPositions(l, callback) == idx0 + [|init|];
      }
    }
  }

  /** A list that holds no entry identical to `callback` is left as it is. */
  lemma {:induction false} WithoutAbsent(l: seq<CallbackId>, callback: Value)
    requires forall k :: 0 <= k < |l| ==> !Identical(callback, l[k])
    ensures Without(l, callback) == l
    decreases |l|
  {
    if |l| > 0 {
      var init, last := l[..|l| - 1], l[|l| - 1];
      forall k | 0 <= k < |init| ensures !Identical(callback, init[k]) {
        assert init[k] == l[k];
      }
      WithoutAbsent(init, callback);
      assert !Identical(callback, last);
      assert Without(l, callback) == Without(init, callback) + [last];
      assert l == init + [last];
    }
  }

  /** Removing the same callback twice removes nothing more. */
  lemma {:induction false} WithoutIdempotent(l: seq<CallbackId>, callback: Value)
    ensures Without(Without(l, callback), callback) == Without(l, callback)
  {
    var r := Without(l, callback);
    forall k | 0 <= k < |r|
      ensures !Identical(callback, r[k])
    {
      assert r[k] in r;
      WithoutMembers(l, callback, r[k]);
    }
    WithoutAbsent(r, callback);
  }

  // ---------------------------------------------------------------------------
  // The registry operations
  // ---------------------------------------------------------------------------

  /**
   * `on(event, callback)`: make sure `event` has an entry, then append `callback` to it
   * if it is a function. Non-callable arguments are silently ignored.
   */
  function On(reg: Registry, event: string, callback: Value): (r: Registry)
    ensures r.Keys == reg.Keys + {event}
    ensures forall e :: e in reg && e != event ==> r[e] == reg[e]
    ensures Callable(callback) ==> r[event] == ListenersOf(reg, event) + [callback.id]
    ensures !Callable(callback) ==> r[event] == ListenersOf(reg, event)
  {
    var existing := ListenersOf(reg, event);
    reg[event := if Callable(callback) then existing + [callback.id] else existing]
  }

  /**
   * The list `off` leaves for an event that had the list `l`: a truthy `callback` removes
   * every entry identical to it, an omitted or falsy one clears the list, and an empty list
   * is left alone.
   */
  function OffList(l: seq<CallbackId>, callback: Value): (r: seq<CallbackId>)
    ensures l == [] ==> r == []
    ensures !Truthy(callback) ==> r == []
    ensures Truthy(callback) ==> forall k :: 0 <= k < |r| ==> !Identical(callback, r[k])
  {
    if |l| > 0 then
      if Truthy(callback) then Without(l, callback) else []
    else l
  }

  /**
   * A truthy callback passed to `off` takes out exactly its own entries: every other
   * callback is kept as often as it was listed.
   */
  lemma OffListCounts(l: seq<CallbackId>, callback: Value)
    requires Truthy(callback)
    ensures forall c :: Count(OffList(l, callback), c) == if Identical(callback, c) then 0 else Count(l, c)
  {
    WithoutCounts(l, callback);
  }

  /**
   * `off(event, callback)`: rewrites the list of `event` as `OffList` says; an event with
   * no entry is left alone, and no other event is touched.
   */
  function Off(reg: Registry, event: string, callback: Value): (r: Registry)
    ensures r.Keys == reg.Keys
    ensures forall e :: e in reg && e != event ==> r[e] == reg[e]
    ensures event !in reg ==> r == reg
    ensures event in reg ==> r[event] == OffList(reg[event], callback)
  {
    if event in reg then reg[event := OffList(reg[event], callback)] else reg
  }

  /** The calls made to `listeners`, in order, each receiving `args`. */
  function Invoke(listeners: seq<CallbackId>, args: seq<Value>): (r: seq<Invocation>)
    ensures |r| == |listeners|
    ensures forall i :: 0 <= i < |r| ==> r[i] == Invocation(listeners[i], args)
    decreases |listeners|
  {
    if |listeners| == 0 then []
    else [Invocation(listeners[0], args)] + Invoke(listeners[1..], args)
  }

  /**
   * `trigger(event, args)`: every callback bound to `event` is called once, in registration
   * order, with `args`; omitted (or null) `args` become the empty list. An event without an
   * entry triggers nothing.
   */
  function Trigger(reg: Registry, event: string, args: Option<seq<Value>>): (r: seq<Invocation>)
    ensures event !in reg ==> r == []
    ensures event in reg ==> |r| == |reg[event]|
    ensures event in reg ==>
      forall i :: 0 <= i < |r| ==> r[i].callback == reg[event][i] && r[i].args == args.GetOr([])
  {
    if event in reg then Invoke(reg[event], args.GetOr([])) else []
  }

  // ---------------------------------------------------------------------------
  // Properties relating the operations
  // ---------------------------------------------------------------------------

  /** Invoking a list with one more callback at its end makes one more call, last. */
  lemma InvokeAppend(listeners: seq<CallbackId>, c: CallbackId, args: seq<Value>)
    ensures Invoke(listeners + [c], args) == Invoke(listeners, args) + [Invocation(c, args)]
  {
    var l := Invoke(listeners + [c], args);
    var r := Invoke(listeners, args) + [Invocation(c, args)];
    assert |l| == |r|;
    forall i | 0 <= i < |l| ensures l[i] == r[i] {
      if i < |listeners| {
        assert (listeners + [c])[i] == listeners[i];
      }
    }
  }

  /** A callback bound with `on` is called once more, after all earlier listeners. */
  lemma TriggerAfterOn(reg: Registry, event: string, c: CallbackId, args: Option<seq<Value>>)
    ensures Trigger(On(reg, event, Fn(c)), event, args)
         == Trigger(reg, event, args) + [Invocation(c, args.GetOr([]))]
  {
    InvokeAppend(ListenersOf(reg, event), c, args.GetOr([]));
  }

  /** Binding to one event never changes what another event triggers. */
  lemma TriggerOtherEvent(reg: Registry, event: string, other: string, callback: Value, args: Option<seq<Value>>)
    requires other != event
    ensures Trigger(On(reg, event, callback), other, args) == Trigger(reg, other, args)
    ensures Trigger(Off(reg, event, callback), other, args) == Trigger(reg, other, args)
  {
  }

  /** After `off(event, cb)` triggering `event` never calls `cb`; every other listener still is. */
  lemma TriggerAfterOff(reg: Registry, event: string, c: CallbackId, d: CallbackId, args: Option<seq<Value>>)
    requires event in reg
    ensures forall inv :: inv in Trigger(Off(reg, event, Fn(c)), event, args) ==> inv.callback != c
    ensures d != c && d in reg[event] ==>
      Invocation(d, args.GetOr([])) in Trigger(Off(reg, event, Fn(c)), event, args)
  {
    var r := Off(reg, event, Fn(c));
    var t := Trigger(r, event, args);
    forall inv | inv in t ensures inv.callback != c {
      var i :| 0 <= i < |t| && t[i] == inv;
      assert r[event][i] in r[event];
      WithoutMembers(reg[event], Fn(c), r[event][i]);
    }
    if d != c && d in reg[event] {
      WithoutMembers(reg[event], Fn(c), d);
      var i :| 0 <= i < |r[event]| && r[event][i] == d;
      assert t[i] == Invocation(d, args.GetOr([]));
    }
  }

  /** `off(event)` without a callback leaves `event` with nothing to trigger. */
  lemma TriggerAfterClear(reg: Registry, event: string, args: Option<seq<Value>>)
    ensures Trigger(Off(reg, event, Undefined), event, args) == []
  {
  }

  /** Removing a callback that was appended last and nowhere else gives back the list before. */
  lemma WithoutUndoesAppend(l: seq<CallbackId>, c: CallbackId)
    requires c !in l
    ensures OffList(l + [c], Fn(c)) == l
  {
    var l' := l + [c];
    assert forall k :: 0 <= k < |l| ==> !Identical(Fn(c), l[k]);
    WithoutAbsent(l, Fn(c));
    assert l'[..|l'| - 1] == l;
  }

  /**
   * `off` undoes `on`: binding a callback the event did not hold and then unbinding it
   * gives back the registry that was there before.
   */
  lemma OffUndoesOn(reg: Registry, event: string, c: CallbackId)
    requires event in reg
    requires c !in reg[event]
    ensures Off(On(reg, event, Fn(c)), event, Fn(c)) == reg
  {
    WithoutUndoesAppend(reg[event], c);
    assert reg[event := reg[event] + [c]][event := reg[event]] == reg;
  }

  /** On an event that had no entry, `on` then `off` leaves an empty entry behind. */
  lemma OffAfterOnFresh(reg: Registry, event: string, c: CallbackId)
    requires event !in reg
    ensures Off(On(reg, event, Fn(c)), event, Fn(c)) == reg[event := []]
  {
    WithoutUndoesAppend([], c);
  }

  /** Removing a callback, or clearing, twice is the same as doing it once. */
  lemma OffListIdempotent(l: seq<CallbackId>, callback: Value)
    ensures OffList(OffList(l, callback), callback) == OffList(l, callback)
  {
    if |l| > 0 && Truthy(callback) {
      WithoutIdempotent(l, callback);
    }
  }

  /** `off` applied twice with the same arguments changes nothing the second time. */
  lemma OffIdempotent(reg: Registry, event: string, callback: Value)
    ensures Off(Off(reg, event, callback), event, callback) == Off(reg, event, callback)
  {
    if event in reg {
      OffListIdempotent(reg[event], callback);
    }
  }

  /** `off(event, cb)` keeps the surviving listeners of `event` in registration order. */
  lemma OffKeepsOrder(reg: Registry, event: string, callback: Value)
    requires event in reg
    ensures SubsequenceOf(Off(reg, event, callback)[event], reg[event])
  {
    if |reg[event]| > 0 && Truthy(callback) {
      WithoutKeepsOrder(reg[event], callback);
    } else {
      var empty: seq<int> := [];
      assert Embedding(Off(reg, event, callback)[event], reg[event], empty);
    }
  }

  // ---------------------------------------------------------------------------
  // Sequences of calls
  // ---------------------------------------------------------------------------

  /** One call of the registry API that changes it. */
  datatype Call = OnCall(event: string, callback: Value) | OffCall(event: string, callback: Value)

  /** The registry after `call`. */
  function Apply(reg: Registry, call: Call): Registry {
    match call
    case OnCall(e, cb) => On(reg, e, cb)
    case OffCall(e, cb) => Off(reg, e, cb)
  }

  /** The registry after the calls of `script`, made in order. */
  function Run(reg: Registry, script: seq<Call>): Registry
    decreases |script|
  {
    if |script| == 0 then reg else Run(Apply(reg, script[0]), script[1..])
  }

  /** Running two scripts one after the other is running their concatenation. */
  lemma {:induction false} RunConcat(reg: Registry, s1: seq<Call>, s2: seq<Call>)
    ensures Run(reg, s1 + s2) == Run(Run(reg, s1), s2)
    decreases |s1|
  {
    if |s1| > 0 {
      assert (s1 + s2)[1..] == s1[1..] + s2;
      RunConcat(Apply(reg, s1[0]), s1[1..], s2);
    } else {
      assert s1 + s2 == s2;
    }
  }

  /** A script of three calls applies them in order. */
  lemma RunThree(reg: Registry, a: Call, b: Call, c: Call)
    ensures Run(reg, [a, b, c]) == Apply(Apply(Apply(reg, a), b), c)
  {
    assert [a, b, c][1..] == [b, c];
    assert [b, c][1..] == [c];
    assert [c][1..] == [];
    var r1 := Apply(reg, a);
    var r2 := Apply(r1, b);
    assert Run(r2, [c]) == Run(Apply(r2, c), []);
    assert Run(r1, [b, c]) == Run(r2, [c]);
    assert Run(reg, [a, b, c]) == Run(r1, [b, c]);
  }

  /** `c` was handed to `on` somewhere in `script`. */
  predicate BoundIn(c: CallbackId, script: seq<Call>) {
    exists k :: 0 <= k < |script| && script[k] == OnCall(script[k].event, Fn(c))
  }

  /** Every callback in the registry is a function that was bound with `on`. */
  ghost predicate OnlyBound(reg: Registry, script: seq<Call>) {
    forall e, c :: e in reg && c in reg[e] ==> BoundIn(c, script)
  }

  /** A listener that `call` adds to the registry is the function that `call` binds. */
  lemma NewListenerIsBound(reg: Registry, call: Call, e: string, c: CallbackId)
    requires e in Apply(reg, call) && c in Apply(reg, call)[e]
    requires !(e in reg && c in reg[e])
    ensures call == OnCall(e, Fn(c))
  {
    match call
    case OnCall(e0, cb) =>
      if e != e0 {
        assert false;
      }
      assert c in ListenersOf(reg, e) + (if Callable(cb) then [cb.id] else []);
    case OffCall(e0, cb) =>
      if e != e0 {
        assert false;
      }
      var l := reg[e];
      if |l| > 0 && Truthy(cb) {
        WithoutMembers(l, cb, c);
      }
      assert false;
  }

  /**
   * Nothing gets into the registry except through `on` with a function: after any script
   * started from an empty registry, every listener was bound by one of its `on` calls.
   */
  lemma {:induction false} RunHoldsOnlyBound(reg: Registry, script: seq<Call>, done: seq<Call>)
    requires OnlyBound(reg, done)
    ensures OnlyBound(Run(reg, script), done + script)
    decreases |script|
  {
    if |script| > 0 {
      var next := Apply(reg, script[0]);
      var done' := done + [script[0]];
      forall e, c | e in next && c in next[e]
        ensures BoundIn(c, done')
      {
        if e in reg && c in reg[e] {
          assert BoundIn(c, done);
          var k :| 0 <= k < |done| && done[k] == OnCall(done[k].event, Fn(c));
          assert done'[k] == done[k];
        } else {
          NewListenerIsBound(reg, script[0], e, c);
          assert done'[|done|] == script[0];
        }
      }
      assert OnlyBound(next, done');
      RunHoldsOnlyBound(next, script[1..], done');
      assert done' + script[1..] == done + script;
      assert Run(reg, script) == Run(next, script[1..]);
    } else {
      assert done + script == done;
    }
  }

  /** Starting from the empty registry `enable` creates, only bound callbacks are ever listed. */
  lemma FreshRunHoldsOnlyBound(script: seq<Call>)
    ensures OnlyBound(Run(map[], script), script)
  {
    RunHoldsOnlyBound(map[], script, []);
    assert [] + script == script;
  }
}

=== FILE: mixin_events.dfy ===
/**
 * `ZOOLU.MIXIN.Events`: the event API mixed into an object by `enable`. The host's
 * `listeners` property is undefined until `enable` creates it; `on`, `off` and `trigger`
 * read that property first and so throw a TypeError on a host that was never enabled.
 */
module MixinEvents {
  import opened Wrappers
  import opened JsValue
  import L = Listeners

  /** The one error these operations can raise: reading a property of `undefined`. */
  datatype Error = TypeError

  /** An object the API is mixed into; `listeners` is `None` until `enable` runs. */
  datatype Host = Host(listeners: Option<L.Registry>)

  /** `enable`: creates an empty registry only if the host has none; existing listeners stay. */
  function Enable(h: Host): (r: Host)
    ensures r.listeners.Some?
    ensures h.listeners.Some? ==> r == h
    ensures h.listeners.None? ==> r.listeners == Some(map[])
  {
    if h.listeners.None? then Host(Some(map[])) else h
  }

  /** Enabling twice is the same as enabling once. */
  lemma EnableIdempotent(h: Host)
    ensures Enable(Enable(h)) == Enable(h)
  {
  }

  /** `on(event, callback)` on the host's registry. */
  function On(h: Host, event: string, callback: Value): (r: Result<Host, Error>)
    ensures h.listeners.None? <==> r.Failure?
    ensures r.Success? ==> r.value.listeners.Some?
    ensures r.Success? ==> r.value.listeners.value.Keys == h.listeners.value.Keys + {event}
    ensures r.Success? && Callable(callback) ==>
      r.value.listeners.value[event] == L.ListenersOf(h.listeners.value, event) + [callback.id]
    ensures r.Success? ==> r.value == Host(Some(L.On(h.listeners.value, event, callback)))
  {
    if h.listeners.None? then Failure(TypeError)
    else Success(Host(Some(L.On(h.listeners.value, event, callback))))
  }

  /** `off(event, callback)` on the host's registry. */
  function Off(h: Host, event: string, callback: Value): (r: Result<Host, Error>)
    ensures h.listeners.None? <==> r.Failure?
    ensures r.Success? ==> r.value.listeners.Some?
    ensures r.Success? ==> r.value.listeners.value.Keys == h.listeners.value.Keys
    ensures r.Success? && event !in h.listeners.value ==> r.value == h
    ensures r.Success? ==> r.value == Host(Some(L.Off(h.listeners.value, event, callback)))
  {
    if h.listeners.None? then Failure(TypeError)
    else Success(Host(Some(L.Off(h.listeners.value, event, callback))))
  }

  /** `trigger(event, args)`: the calls it makes, in order; nothing for an unknown event. */
  function Trigger(h: Host, event: string, args: Option<seq<Value>>): (r: Result<seq<L.Invocation>, Error>)
    ensures h.listeners.None? <==> r.Failure?
    ensures r.Success? && event !in h.listeners.value ==> r.value == []
    ensures r.Success? ==> |r.value| == |L.ListenersOf(h.listeners.value, event)|
    ensures r.Success? ==> r.value == L.Trigger(h.listeners.value, event, args)
  {
    if h.listeners.None? then Failure(TypeError)
    else Success(L.Trigger(h.listeners.value, event, args))
  }

  /**
   * The scenario of the `on` test: after `enable` and one `on`, the event's list holds
   * exactly that callback, and triggering it with `[arg]` calls it once with `arg`.
   */
  lemma EnableOnTrigger(event: string, c: CallbackId, arg: Value)
    ensures On(Enable(Host(None)), event, Fn(c)).Success?
    ensures On(Enable(Host(None)), event, Fn(c)).value.listeners == Some(map[event := [c]])
    ensures Trigger(On(Enable(Host(None)), event, Fn(c)).value, event, Some([arg]))
         == Success([L.Invocation(c, [arg])])
  {
    assert [] + [c] == [c];
    assert L.Invoke([c], [arg]) == [L.Invocation(c, [arg])];
  }

  /** The first three calls of the `off` test: bind two callbacks to `e1`, remove the first. */
  lemma OffScenarioFirstEvent(e1: string, remove: CallbackId, stay: CallbackId)
    requires remove != stay
    ensures L.Off(L.On(L.On(map[], e1, Fn(remove)), e1, Fn(stay)), e1, Fn(remove)) == map[e1 := [stay]]
  {
    var m1 := L.On(map[], e1, Fn(remove));
    assert m1 == map[e1 := [remove]] by {
      assert [] + [remove] == [remove];
    }
    var m2 := L.On(m1, e1, Fn(stay));
    assert m2 == map[e1 := [remove, stay]] by {
      assert L.ListenersOf(m1, e1) == [remove];
      assert [remove] + [stay] == [remove, stay];
    }
    var l := [remove, stay];
    assert l[..1] == [remove];
    assert [remove][..0] == [];
    assert L.Without(l, Fn(remove)) == [stay];
  }

  /** The last three calls of the `off` test: bind two callbacks to `e2`, then clear `e2`. */
  lemma OffScenarioSecondEvent(e1: string, e2: string, stay: CallbackId, all1: CallbackId, all2: CallbackId)
    requires e1 != e2
    ensures L.Off(L.On(L.On(map[e1 := [stay]], e2, Fn(all1)), e2, Fn(all2)), e2, Undefined)
         == map[e1 := [stay], e2 := []]
  {
    var m4 := L.On(map[e1 := [stay]], e2, Fn(all1));
    assert m4 == map[e1 := [stay], e2 := [all1]] by {
      assert [] + [all1] == [all1];
    }
  }

  /**
   * The scenario of the `off` test: two callbacks on one event, the first removed, leave
   * the second alone at the front; `off` without a callback empties the other event only.
   */
  lemma OffScenario(e1: string, e2: string, remove: CallbackId, stay: CallbackId, all1: CallbackId, all2: CallbackId)
    requires e1 != e2
    requires remove != stay
    ensures L.Run(map[], [L.OnCall(e1, Fn(remove)), L.OnCall(e1, Fn(stay)), L.OffCall(e1, Fn(remove)),
                          L.OnCall(e2, Fn(all1)), L.OnCall(e2, Fn(all2)), L.OffCall(e2, Undefined)])
         == map[e1 := [stay], e2 := []]
  {
    var first := [L.OnCall(e1, Fn(remove)), L.OnCall(e1, Fn(stay)), L.OffCall(e1, Fn(remove))];
    var second := [L.OnCall(e2, Fn(all1)), L.OnCall(e2, Fn(all2)), L.OffCall(e2, Undefined)];
    OffScenarioFirstEvent(e1, remove, stay);
    OffScenarioSecondEvent(e1, e2, stay, all1, all2);
    L.RunThree(map[], first[0], first[1], first[2]);
    assert L.Run(map[], first) == map[e1 := [stay]];
    L.RunThree(map[e1 := [stay]], second[0], second[1], second[2]);
    assert L.Run(map[e1 := [stay]], second) == map[e1 := [stay], e2 := []];
    L.RunConcat(map[], first, second);
    assert first + second
        == [L.OnCall(e1, Fn(remove)), L.OnCall(e1, Fn(stay)), L.OffCall(e1, Fn(remove)),
            L.OnCall(e2, Fn(all1)), L.OnCall(e2, Fn(all2)), L.OffCall(e2, Undefined)];
  }
}

=== FILE: util_events.dfy ===
/**
 * `ZOOLU.UTIL.Events`: the older copy of the event API. It differs from
 * `ZOOLU.MIXIN.Events` in two ways: `on` enables the host itself, and the dispatching
 * operation is called `fire`, which hands `args` to `apply` unchanged (`apply` treats an
 * undefined or null argument list as no arguments).
 */
module UtilEvents {
  import opened Wrappers
  import opened JsValue
  import L = Listeners
  import M = MixinEvents

  /** `fire(event, args)`: the calls it makes, in registration order. */
  function Fire(h: M.Host, event: string, args: Option<seq<Value>>): (r: Result<seq<L.Invocation>, M.Error>)
    ensures h.listeners.None? <==> r.Failure?
    ensures r.Success? && event !in h.listeners.value ==> r.value == []
    ensures r.Success? && event in h.listeners.value ==>
      |r.value| == |h.listeners.value[event]|
      && forall i :: 0 <= i < |r.value| ==> r.value[i] == L.Invocation(h.listeners.value[event][i], args.GetOr([]))
  {
    if h.listeners.None? then Failure(M.TypeError)
    else if event in h.listeners.value then
      Success(L.Invoke(h.listeners.value[event], args.GetOr([])))
    else Success([])
  }

  /** `on(event, callback)`: enables the host first, so it never fails. */
  function On(h: M.Host, event: string, callback: Value): (r: M.Host)
    ensures r.listeners.Some?
    ensures r.listeners.value.Keys == M.Enable(h).listeners.value.Keys + {event}
    ensures forall e :: e in M.Enable(h).listeners.value && e != event ==>
      r.listeners.value[e] == M.Enable(h).listeners.value[e]
    ensures Callable(callback) ==>
      r.listeners.value[event] == L.ListenersOf(M.Enable(h).listeners.value, event) + [callback.id]
    ensures !Callable(callback) ==>
      r.listeners.value[event] == L.ListenersOf(M.Enable(h).listeners.value, event)
  {
    M.Host(Some(L.On(M.Enable(h).listeners.value, event, callback)))
  }

  /** `off(event, callback)`: same rules as the mixin's `off`, including the TypeError. */
  function Off(h: M.Host, event: string, callback: Value): (r: Result<M.Host, M.Error>)
    ensures h.listeners.None? <==> r.Failure?
    ensures r.Success? ==> r.value.listeners.Some?
    ensures r.Success? ==> r.value.listeners.value.Keys == h.listeners.value.Keys
    ensures r.Success? && event !in h.listeners.value ==> r.value == h
    ensures r.Success? && event in h.listeners.value ==>
      r.value.listeners.value[event] == L.OffList(h.listeners.value[event], callback)
  {
    if h.listeners.None? then Failure(M.TypeError)
    else
      var reg := h.listeners.value;
      if event in reg && |reg[event]| > 0 then
        if Truthy(callback) then Success(M.Host(Some(reg[event := L.Without(reg[event], callback)])))
        else Success(M.Host(Some(reg[event := []])))
      else Success(h)
  }

  /** `on` on an object that was never enabled yields the registry `event ↦ [callback]`. */
  lemma OnFreshHost(event: string, c: CallbackId)
    ensures On(M.Host(None), event, Fn(c)).listeners == Some(map[event := [c]])
  {
    assert [] + [c] == [c];
  }

  /** `on` with a non-callable argument on a fresh object leaves an empty entry for `event`. */
  lemma OnFreshHostNonCallable(event: string, x: Value)
    requires !Callable(x)
    ensures On(M.Host(None), event, x).listeners == Some(map[event := []])
  {
  }

  /** On an enabled host the two copies of `on` agree. */
  lemma OnAgreesWithMixin(h: M.Host, event: string, callback: Value)
    requires h.listeners.Some?
    ensures M.On(h, event, callback) == Success(On(h, event, callback))
  {
  }

  /** The two copies of `off` agree everywhere, including the failure on a host never enabled. */
  lemma OffAgreesWithMixin(h: M.Host, event: string, callback: Value)
    ensures M.Off(h, event, callback) == Off(h, event, callback)
  {
    if h.listeners.Some? {
      var reg := h.listeners.value;
      if event in reg && |reg[event]| == 0 {
        assert reg[event := reg[event]] == reg;
      }
    }
  }

  /** `fire` makes exactly the calls the mixin's `trigger` makes. */
  lemma FireAgreesWithTrigger(h: M.Host, event: string, args: Option<seq<Value>>)
    ensures Fire(h, event, args) == M.Trigger(h, event, args)
  {
  }
}

=== FILE: wrappers.dfy ===
/** Optional values and results shared by the model. */
module Wrappers {

  /** An optional value: `None` plays the part of JavaScript's `undefined`/`null`. */
  datatype Option<+T> = None | Some(value: T) {

    /** The wrapped value, or `default` when there is none. */
    function GetOr(default: T): T {
      match this
      case Some(v) => v
      case None => default
    }
  }

  /** The outcome of an operation that can throw: a value, or the error it raised. */
  datatype Result<+R, +E> = Success(value: R) | Failure(error: E)
}
